=== FILE: README.md ===
# hoyo-slack-docker daemon core, modelled in Dafny

The daemon polls a Genshin Impact account's Daily Notes and posts a report to a
Slack webhook every cycle. It also posts one-off "resin alerts" the first time
each configured resin threshold is reached on a given NA-server day. This
project models the parts of `app.py` that decide what gets posted and remembered:

- normalising the upstream "time until full" values to whole seconds (`convert_recovery`)
- rendering those seconds as `in ~Hh Mm` (`eta_str`)
- the Spiral Abyss reset rule: 04:00 America/New_York on the 1st and the 16th (`next_abyss_reset_na`)
- the threshold list read from `RESIN_ALERT_THRESHOLDS` (`RESIN_ALERTS`)
- the once-per-day alert bookkeeping in the state file (`maybe_fire_resin_alerts`, `load_state`, `save_state`)
- the field derivations and step order of one cycle (`run_once`)

Modules, in dependency order:

- `base.dfy` (`Base`): `Option` and `Result`.
- `text.dfy` (`Text`): the Python string operations the code relies on:
  - `str.strip` with Python's whitespace set
  - `int()` on text
  - `str(int)`
  - `str.split`
  - `str.join`
  - `str.replace(pat, "")`
- `recovery.dfy` (`Recovery`): `convert_recovery`, `eta_str`, and a reader for the rendered text.
- `calendar.dfy` (`Calendar`): proleptic Gregorian date-times and `next_abyss_reset_na`.
- `alerts.dfy` (`Alerts`): `RESIN_ALERTS`, the state document, `load_state` and `maybe_fire_resin_alerts`.
- `report.dfy` (`Report`): the report fields and one `run_once` cycle.

Anything the daemon gets from outside becomes a parameter:

- the current instant (epoch microseconds for UTC; a `DateTime` for New York wall time)
- the NA day key (`today_na_str()`)
- the fetched notes, or `None` when the fetch raised
- whether each Slack post succeeds
- the contents of the state file

An exception is an `Err` (or `error` in a cycle outcome).

A few behaviours of the code matter for what gets posted, and the model keeps them:

- `convert_recovery`'s dict branch has no `try`. When `int()` rejects a
  component, the exception leaves `convert_recovery` and ends `run_once`.
  `ConvertRecovery` returns `Err(ComponentNotNumeric)` in that case; its
  other branches never fail.
- The alert loop walks `RESIN_ALERTS` in configured order, not sorted, and
  `FireLoop` does the same (`FireLoopOrder`). A duplicated threshold fires at
  most once, because its second copy is already marked.
- The Slack post comes before the mark. A failed post therefore raises
  before `save_state`: nothing of that call is saved, and the alerts already
  posted in that call are due again next cycle (`FailedPostIsRetried`).
- `target - now` subtracts two datetimes sharing the same `ZoneInfo`, which
  Python does on wall-clock fields without UTC offsets. Across a DST change
  the delta is therefore off by an hour. `WallDeltaMicros` computes the same
  wall-clock difference.
- `load_state` returns any JSON value the file holds. A non-object makes
  every cycle raise at the alert step (see Findings). `RunOnce` models the
  cycle as written; `RunOnceCorrected` is the same cycle with the corrected
  loader.

## Model

| member | source | states |
|---|---|---|
| Recovery.ConvertRecovery | app.py:100-125 | None is 0. A ready-at instant gives the whole seconds left, truncated, and 0 once it has passed. A Day/Hour/Minute/Second record gives the weighted sum floored at 0, with missing keys read as 0, and raises exactly when `int()` rejects a component. Any other value is `int()` of it floored at 0, or 0 when `int()` fails. |
| Recovery.PyInt | app.py:116-125 | `int()` fails exactly on a non-number and on text that is not an integer literal (an information separator anywhere counts as not a literal); an int is kept, a float is truncated toward zero, and text reads as `int()` reads it |
| Recovery.SeparatorTextIsZero | app.py:116-125 | text ending in U+001F is rejected by `int()`, so it normalises to 0 |
| Recovery.TruncateToInt | app.py:113 | `int()` of a float truncates toward zero: the result is at most the value above zero and at least it below zero, within one |
| Recovery.Render | app.py:127-133 | the text is "ready" exactly when the seconds are 0, and starts with "in ~" otherwise |
| Recovery.RenderHours | app.py:131-133 | an "<h>h " piece follows "in ~" exactly when there is at least one whole hour; otherwise the text has no 'h' |
| Recovery.RenderMinutes | app.py:132-133 | an "<m>m" piece ends the text exactly when there are leftover whole minutes; otherwise the text has no 'm' |
| Recovery.EtaStr | app.py:127-133 | `eta_str` fails exactly when normalisation fails, says "ready" exactly when the normalised seconds are 0, and otherwise reads back as their whole hours and leftover minutes |
| Recovery.RenderRoundTrip | app.py:131-133 | reading the rendered text back gives exactly the whole hours and the leftover whole minutes, or "ready" for 0 |
| Recovery.RenderSameIff | app.py:129-133 | two second counts render alike iff both are 0 or both are positive with the same number of whole minutes |
| Recovery.RenderWholeHour | app.py:133 | `.strip()` binds to the minutes piece only, so a whole hour renders as "in ~1h " with its trailing space |
| Recovery.RenderUnderAMinute | app.py:131-133 | under a minute renders as the bare "in ~" |
| Recovery.EtaOfSecondsIsRender | app.py:188 | normalising an already-normalised seconds value again (app.py:219) changes nothing |
| Calendar.NextResetTarget | app.py:135-149 | the target is a valid 04:00 instant on the 1st or 16th, strictly after now; it is in this month until the 16th's reset has passed, then the 1st of the next month with December rolling into January; it raises exactly after the last reset of year 9999 |
| Calendar.NextAbyssResetNa | app.py:135-151 | returns that target, and the delta is the wall-clock difference from now to it: positive and at most 16 days |
| Calendar.NextResetIsEarliest | app.py:140-149 | no reset instant lies strictly between now and the target |
| Calendar.WallDeltaMicros | app.py:151 | `target - now` on two datetimes sharing one tzinfo: 0 for equal instants, and otherwise the calendar-day distance in whole days, off by less than a day of clock readings, with no UTC offset involved |
| Calendar.NoResetAfterLastOne | app.py:145-149 | when the constructor raises, no representable reset lies after now |
| Calendar.DeltaPositive | app.py:151 | the wall-clock difference `b - a` is positive exactly when `a` comes before `b` |
| Calendar.ResetWithinSixteenDays | app.py:140-151 | the wait until the next reset never exceeds 16 days |
| Calendar.OrdinalMonotone | app.py:151 | a strictly earlier calendar date has a strictly smaller day number |
| Calendar.ReferenceCases | app.py:140-149 | 2024-03-10 03:00 gives 03-16 04:00; exactly 03-16 04:00 gives 04-01 04:00; 12-20 gives the next year's 01-01 04:00 |
| Text.Strip | app.py:45 | the result is empty iff the text is all whitespace, is unchanged on text without whitespace, and neither begins nor ends with whitespace |
| Text.Split | app.py:44 | splitting gives at least one piece, none containing the separator, and joining them back gives the input |
| Text.SplitJoin | app.py:44 | splitting a join of separator-free pieces gives back the pieces |
| Text.ParseIntAccepts | app.py:44 | `int()` accepts exactly an optionally signed run of decimal digits after stripping, in text holding no information separator (U+001C to U+001F, which `str.strip()` trims but `int()` does not), and its value is that of the digits, negated only under a minus sign |
| Text.ParseIntRoundTrip | app.py:44 | `int(str(t)) == t` for every integer |
| Text.RemoveAll | app.py:210 | `replace(pat, "")` never lengthens the text, and leaves it unchanged when the pattern's first character does not occur |
| Text.RemoveLeading | app.py:210 | an occurrence at the front is removed and the scan continues after it |
| Text.IntToStringInjective | app.py:163 | two thresholds share a state key `str(thr)` exactly when they are equal |
| Alerts.ParsePieces | app.py:43-46 | blank pieces are skipped, so input made only of blank pieces yields no thresholds; never more thresholds than pieces |
| Alerts.ParsePiecesFails | app.py:43-46 | parsing raises exactly when some piece is neither blank nor an integer literal |
| Alerts.ParsePiecesKept | app.py:43-46 | on success the thresholds are `int()` of the non-blank pieces, one each, in order |
| Alerts.Kept | app.py:45 | the kept pieces are exactly the non-blank ones |
| Alerts.DropBlankPiece | app.py:45 | a blank piece anywhere in the list changes nothing |
| Alerts.ParseThresholds | app.py:43-46 | `RESIN_ALERTS` from the variable's text: it raises exactly when some comma-separated piece is neither blank nor an integer literal, and otherwise holds `int()` of the non-blank pieces, in order |
| Alerts.SeparatorPieceRaises | app.py:43-46 | a piece whose only blank is U+001C passes the `x.strip()` test, and `int()` then raises |
| Alerts.ConfiguredThresholds | app.py:43-44 | with the variable unset the thresholds are [120, 160]; otherwise they are parsed from its text |
| Alerts.ThresholdsRoundTrip | app.py:43-46 | writing a threshold list as comma-separated text and parsing it gives the same list, in order |
| Alerts.DefaultIsTwoThresholds | app.py:44 | with the variable unset the thresholds are [120, 160] |
| Alerts.LoadStateAsWritten | app.py:64-72 | a missing or unreadable file gives `{}`; a saved document comes back as saved |
| Alerts.LoadState | app.py:64-72 | corrected: a saved document comes back as saved, and a missing, unreadable or non-object file gives the empty document |
| Alerts.MarkOne | app.py:163-169 | marking one threshold marks exactly that threshold in addition to those already marked |
| Alerts.FireLoop | app.py:162-170 | the loop succeeds iff every due threshold's post succeeds. A threshold fires iff it is listed, not yet marked and reached, and none fires twice. The day map gains exactly the fired keys as true. A failure names a due threshold whose post failed, after due posts that succeeded. |
| Alerts.FireLoopOrder | app.py:162-170 | thresholds fire in configured order; a failure names the first due threshold whose post failed, and the posts before it are exactly the due thresholds listed earlier, in order |
| Alerts.IndexOf | app.py:162 | the position of a threshold's first occurrence in the configured list |
| Alerts.FiresExactlyOne | app.py:162-170 | when exactly one listed threshold is due and its post succeeds, the call fires that threshold alone |
| Alerts.FireResinAlerts | app.py:156-173 | the same for the whole call, including the configured order and the first failing post. Other days are untouched and today's entry exists; marks are only added; the state is saved iff something fired, and today's entry is unchanged otherwise |
| Alerts.Persist | app.py:172-173 | the file changes only when the call reached `save_state`, and it then holds the call's document |
| Alerts.FireOnLoadedAsWritten | app.py:156-159 | a non-object state raises at `setdefault` before any threshold is considered |
| Alerts.AlertsIdempotent | app.py:162-173 | after a completed call, a later call on the same day with no more resin fires nothing and saves nothing |
| Alerts.FailedPostIsRetried | app.py:165-173 | a failed post leaves the file as it was, and the failed threshold and every threshold posted before it are due again |
| Alerts.ReferenceDay | app.py:156-173 | with [120, 160]: resin 150 fires 120 only; then 170 fires 160 only; then 50 fires nothing and changes nothing |
| Alerts.NonObjectStateRaisesEveryCycle | app.py:64-72 | a state file holding a JSON non-object passes `load_state` and makes the alert step raise |
| Alerts.CorruptStateReadsAsEmpty | app.py:64-72 | with the corrected loader, an unusable file behaves like a missing one and the alert step can fail only on a post |
| Alerts.NothingDueFiresNothing | app.py:162-173 | when no listed threshold is due, nothing fires and nothing is saved |
| Report.CountFinished | app.py:200 | the finished count never exceeds the number of expeditions |
| Report.CountFinishedIsCardinality | app.py:199-201 | the finished count is the number of expeditions whose `finished` is true |
| Report.OrDefault | app.py:194-195 | `getattr(..., d) or d`: a present non-zero value is kept; absent or 0 gives the default |
| Report.AbyssEta | app.py:209-210 | under a second the abyss text is "ready"; otherwise "in ~" put back in front of it gives the rendered whole seconds |
| Report.AbyssEtaReadsBack | app.py:209-210 | dropping "in ~" from the abyss eta loses nothing else: it is "ready" iff under a second, and otherwise reads back as the hours and minutes left |
| Report.DeriveReport | app.py:186-230 | resin is copied with its eta rendered. Expeditions are counted from the list, with a missing list as 0/0. Commissions default to 0 of 4, unclaimed. The teapot reads N/A iff current or max is missing, and its eta is rendered. The abyss target is the next reset, and its eta reads back. The call fails exactly when the teapot eta or the reset date raises. |
| Report.Cycle | app.py:180-264 | the cycle after `load_state` on whatever it returned: a failed fetch changes nothing; the file changes only after an alert went out; a cycle without an exception posts the derived report after the alerts the alert step fired |
| Report.RunOnce | app.py:178-264 | as written: a failed fetch changes nothing; the state file changes only after an alert went out, and then marks every alert of the cycle; the report is posted iff the cycle ends without an exception, and it is the report derived from the fetched notes; a non-object state file ends every cycle that gets past normalising |
| Report.RunOnceCorrected | app.py:64-72 | with the corrected loader the alert step fails only on a post, and a non-object file acts as a missing one |
| Report.CorrectedDiffersOnlyOnNonObject | app.py:64-72 | the corrected cycle and the one as written agree on every state file except a JSON non-object |
| Report.RunOnceAlertStep | app.py:179-191 | only a cycle whose alert step completes on the loaded state can rewrite the file, and it writes that step's document |
| Report.SecondRunSameDaySendsNothing | app.py:178-191 | after a cycle completes, a second one on the same day with no more resin sends no alert and leaves the state file as it was |

## Left out

- Fetching Daily Notes (`genshin.Client`), posting to Slack (`requests.post`)
  and file I/O are outside the model. The fetch and post outcomes are
  parameters. The state file as read is one of four shapes (`NoFile`,
  `Unreadable`, a saved object, a non-object), and writing it always
  succeeds (next line).
- Alerts.Persist: `save_state` is assumed to succeed. In the code, `open`,
  `json.dump` or `os.replace` (app.py:74-79) can raise after the alerts were
  posted; the cycle then ends without a report, the marks are lost, and the
  same alerts go out again next cycle. The model does not cover that outcome.
- Environment and `.env` loading, the credentials check, `POST_ON_START`,
  `main_loop`, `asyncio` and the sleep interval are left out: they sequence
  cycles and contain no logic about what is posted.
- The clocks (`datetime.now`) and the timezone database are parameters. The
  New York wall time and the `today_na_str()` day key are given, so
  `strftime` formatting and how the day key follows DST are not modelled.
- Slack block layout, header, context fields and emoji are left out. The
  report is the values the blocks are filled with.
- Recovery.ConvertRecovery: the instant branch divides exact microseconds, so
  the float rounding of `total_seconds()` on very large deltas is not modelled.
- Recovery.PyInt: `int()` on text is modelled for optional whitespace, an
  optional sign and ASCII digits; the information separators U+001C to
  U+001F, which `int()` does not trim, make it fail. Underscore separators
  and non-ASCII digits are not accepted.
- Alerts.FireResinAlerts: the state document holds only a `resin_alerts`
  map from day keys to maps of booleans. Other top-level keys, non-dict
  nested values and truthy non-boolean entries are not modelled.
- Report.RunOnce: an exception in the first cycle outside `try`
  (`POST_ON_START`) ends the process, and later cycles log and continue.
  The model describes one cycle and does not distinguish the two.
- Text.RemoveAll: only a non-empty pattern is modelled; the code removes
  "in ~" and nothing else.
- Calendar.NextResetTarget: `now` is assumed to be a valid datetime. The
  source's unreachable `d < 1` guard is kept.

## Findings

| source | as written | input that shows it | evidently intended | confidence | as-written member | corrected member |
|---|---|---|---|---|---|---|
| app.py:64-72 | `load_state` returns whatever `json.load` parses. A non-object value reaches `state.setdefault` (app.py:158), which raises, so every cycle fails before its report. | a state file containing `[]` | an unusable state file reads as `{}`, as an unparseable one already does | medium, not executed | Alerts.NonObjectStateRaisesEveryCycle | Report.RunOnceCorrected |

=== FILE: alerts.dfy ===
/** Once-per-day resin alerts (`maybe_fire_resin_alerts`, app.py:156-173), the
    threshold list they are configured with (`RESIN_ALERTS`, app.py:43-46) and
    the state document they live in (`load_state` / `save_state`,
    app.py:64-79).

    The state file holds `{"resin_alerts": {day-key: {str(threshold): true}}}`.
    A threshold fires when today's entry for it is not yet true and the
    current resin has reached it; the Slack post happens first, then the entry
    is marked, and the file is rewritten only if something fired. */
module Alerts {
  import opened Base
  import opened Text

  // ---------------------------------------------------------------------------
  // RESIN_ALERTS
  // ---------------------------------------------------------------------------

  const DefaultThresholds := "120,160"

  /** `[int(x) for x in pieces if x.strip()]`; `None` stands for the
      ValueError of the first piece `int()` rejects. */
  function ParsePieces(pieces: seq<string>): (r: Option<seq<int>>)
    ensures r.Some? ==> |r.value| <= |pieces|
    ensures (forall i :: 0 <= i < |pieces| ==> Strip(pieces[i]) == []) ==> r == Some([])
    decreases |pieces|
  {
    if pieces == [] then Some([])
    else if Strip(pieces[0]) == [] then ParsePieces(pieces[1..])
    else
      match ParseInt(pieces[0])
      case None => None
      case Some(x) =>
        match ParsePieces(pieces[1..])
        case None => None
        case Some(rest) => Some([x] + rest)
  }

  /** A piece `int()` raises on: not blank, and not an integer literal
      (which includes a piece holding an information separator). */
  predicate Rejected(p: string) {
    Strip(p) != [] && ParseInt(p).None?
  }

  /** The pieces the comprehension's `if x.strip()` keeps, in order. */
  function Kept(pieces: seq<string>): (r: seq<string>)
    ensures forall p :: p in r <==> p in pieces && Strip(p) != []
    ensures |r| <= |pieces|
    decreases |pieces|
  {
    if pieces == [] then []
    else
      assert pieces == [pieces[0]] + pieces[1..];
      (if Strip(pieces[0]) == [] then [] else [pieces[0]]) + Kept(pieces[1..])
  }

  /** Some piece is neither blank nor an integer literal. */
  predicate SomeRejected(pieces: seq<string>) {
    exists i :: 0 <= i < |pieces| && Rejected(pieces[i])
  }

  /** `xs` is `int()` of the kept pieces, one each, in order. */
  predicate ParsesKept(pieces: seq<string>, xs: seq<int>) {
    var kept := Kept(pieces);
    |xs| == |kept| && forall k :: 0 <= k < |xs| ==> ParseInt(kept[k]) == Some(xs[k])
  }

  /** Parsing fails exactly when some piece is neither blank nor an integer
      literal. */
  lemma {:induction false} ParsePiecesFails(pieces: seq<string>)
    ensures ParsePieces(pieces).None? <==> SomeRejected(pieces)
    decreases |pieces|
  {
    if pieces != [] {
      ParsePiecesFails(pieces[1..]);
      ParsePiecesNoneStep(pieces);
      SomeIndexStep(pieces, Rejected);
    }
  }

  /** Some element satisfies `f` iff the head does or some element of the
      tail does. */
  lemma SomeIndexStep<T>(s: seq<T>, f: T -> bool)
    requires s != []
    ensures (exists i :: 0 <= i < |s| && f(s[i])) <==> f(s[0]) || exists i :: 0 <= i < |s[1..]| && f(s[1..][i])
  {
    if exists i :: 0 <= i < |s| && f(s[i]) {
      var i :| 0 <= i < |s| && f(s[i]);
      if i > 0 {
        assert s[1..][i - 1] == s[i];
      }
    }
    if exists i :: 0 <= i < |s[1..]| && f(s[1..][i]) {
      var i :| 0 <= i < |s[1..]| && f(s[1..][i]);
      assert s[i + 1] == s[1..][i];
    }
  }

  lemma ParsePiecesNoneStep(pieces: seq<string>)
    requires pieces != []
    ensures ParsePieces(pieces).None? <==> Rejected(pieces[0]) || ParsePieces(pieces[1..]).None?
  {
    ParsePiecesUnfold(pieces);
  }

  /** One step of the comprehension, with the rest left unexpanded. */
  lemma ParsePiecesUnfold(pieces: seq<string>)
    requires pieces != []
    ensures Strip(pieces[0]) == [] ==> ParsePieces(pieces) == ParsePieces(pieces[1..])
    ensures Rejected(pieces[0]) ==> ParsePieces(pieces) == None
    ensures Strip(pieces[0]) != [] && ParseInt(pieces[0]).Some? ==>
      && (ParsePieces(pieces).None? <==> ParsePieces(pieces[1..]).None?)
      && (ParsePieces(pieces).Some? ==>
            ParsePieces(pieces).value == [ParseInt(pieces[0]).value] + ParsePieces(pieces[1..]).value)
  {
  }

  /** On success the result is `int()` of each kept piece, in order: the
      comprehension filters the blank pieces, then maps `int()`. */
  lemma {:induction false} ParsePiecesKept(pieces: seq<string>)
    ensures ParsePieces(pieces).Some? ==> ParsesKept(pieces, ParsePieces(pieces).value)
    decreases |pieces|
  {
    if pieces != [] && ParsePieces(pieces).Some? {
      var head, tail := pieces[0], pieces[1..];
      ParsePiecesKept(tail);
      if Strip(head) != [] {
        ParsePiecesUnfold(pieces);
        KeptCons(head, ParseInt(head).value, Kept(tail), ParsePieces(tail).value, ParseInt);
        assert Kept(pieces) == [head] + Kept(tail);
      } else {
        ParsePiecesUnfold(pieces);
        assert Kept(pieces) == Kept(tail);
      }
    }
  }

  lemma KeptCons<T, U>(p: T, x: U, kept: seq<T>, r: seq<U>, f: T -> Option<U>)
    requires f(p) == Some(x)
    requires |r| == |kept| && forall k :: 0 <= k < |r| ==> f(kept[k]) == Some(r[k])
    ensures forall k :: 0 <= k < |r| + 1 ==> f(([p] + kept)[k]) == Some(([x] + r)[k])
  {
    forall k | 0 <= k < |r| + 1
      ensures f(([p] + kept)[k]) == Some(([x] + r)[k])
    {
      if k > 0 {
        assert ([p] + kept)[k] == kept[k - 1];
        assert ([x] + r)[k] == r[k - 1];
      }
    }
  }

  /** A blank piece anywhere changes nothing. */
  lemma {:induction false} DropBlankPiece(before: seq<string>, p: string, after: seq<string>)
    requires Strip(p) == []
    ensures ParsePieces(before + ([p] + after)) == ParsePieces(before + after)
    decreases |before|
  {
    if before == [] {
      assert before + ([p] + after) == [p] + after;
      assert before + after == after;
      BlankHead(p, after);
    } else {
      DropBlankPiece(before[1..], p, after);
      DropBlankStep(before, [p] + after, after);
    }
  }

  lemma DropBlankStep(before: seq<string>, with: seq<string>, without: seq<string>)
    requires before != []
    requires ParsePieces(before[1..] + with) == ParsePieces(before[1..] + without)
    ensures ParsePieces(before + with) == ParsePieces(before + without)
  {
    ConsSplit(before, with);
    ConsSplit(before, without);
    SameHeadSameParse(before + with, before + without);
  }

  lemma BlankHead(p: string, rest: seq<string>)
    requires Strip(p) == []
    ensures ParsePieces([p] + rest) == ParsePieces(rest)
  {
    assert ([p] + rest)[1..] == rest;
    ParsePiecesUnfold([p] + rest);
  }

  lemma ConsSplit(a: seq<string>, b: seq<string>)
    requires a != []
    ensures (a + b)[0] == a[0] && (a + b)[1..] == a[1..] + b
  {
  }

  lemma SameHeadSameParse(a: seq<string>, b: seq<string>)
    requires a != [] && b != [] && a[0] == b[0]
    requires ParsePieces(a[1..]) == ParsePieces(b[1..])
    ensures ParsePieces(a) == ParsePieces(b)
  {
    ParsePiecesUnfold(a);
    ParsePiecesUnfold(b);
  }

  /** A piece whose only blank is an information separator survives the
      `x.strip()` test but makes `int()` raise. */
  lemma SeparatorPieceRaises()
    ensures ParseThresholds("\U{1C}120").None?
  {
    var p := "\U{1C}120";
    SplitNoSep(p, ',');
    assert IsSeparator(p[0]) && ParseInt(p).None?;
    assert !IsSpace(p[1]) && Strip(p) != [];
    assert Rejected(Split(p, ',')[0]);
  }

  /** The threshold list parsed from `RESIN_ALERT_THRESHOLDS` text: split on
      commas, drop the blank pieces, `int()` the rest. */
  function ParseThresholds(raw: string): (r: Option<seq<int>>)
    ensures r.None? <==> SomeRejected(Split(raw, ','))
    ensures r.Some? ==> ParsesKept(Split(raw, ','), r.value)
  {
    ParsePiecesFails(Split(raw, ','));
    ParsePiecesKept(Split(raw, ','));
    ParsePieces(Split(raw, ','))
  }

  /** The environment variable, or "120,160" when it is unset. */
  function ConfiguredThresholds(env: Option<string>): (r: Option<seq<int>>)
    ensures env.None? ==> r == Some([120, 160])
    ensures env.Some? ==> r == ParseThresholds(env.value)
  {
    DefaultIsTwoThresholds();
    ParseThresholds(env.GetOr(DefaultThresholds))
  }

  /** `[str(t) for t in ts]`. */
  function Pieces(ts: seq<int>): (ps: seq<string>)
    ensures |ps| == |ts|
    ensures forall i :: 0 <= i < |ts| ==> ps[i] == IntToString(ts[i])
  {
    if ts == [] then [] else [IntToString(ts[0])] + Pieces(ts[1..])
  }

  /** `",".join(str(t) for t in ts)`. */
  function RenderThresholds(ts: seq<int>): string {
    Join(Pieces(ts), ',')
  }

  lemma IntToStringPiece(x: int)
    ensures ',' !in IntToString(x)
    ensures Strip(IntToString(x)) == IntToString(x) != []
  {
    var d := NatToDecimal(if x < 0 then -x else x);
    DigitsHaveNoSpace(d);
    var s := IntToString(x);
    if x < 0 {
      assert s == ['-'] + d;
      assert forall k :: 1 <= k < |s| ==> s[k] == d[k - 1];
    }
    assert NoSpace(s);
    assert forall k :: 0 <= k < |s| ==> s[k] != ',';
  }

  lemma ParsePiecesCons(p: string, rest: seq<string>, x: int, xs: seq<int>)
    requires Strip(p) != [] && ParseInt(p) == Some(x)
    requires ParsePieces(rest) == Some(xs)
    ensures ParsePieces([p] + rest) == Some([x] + xs)
  {
    assert ([p] + rest)[0] == p;
    assert ([p] + rest)[1..] == rest;
  }

  lemma RenderedStep(x: int, xs: seq<int>)
    requires ParsePieces(Pieces(xs)) == Some(xs)
    ensures ParsePieces(Pieces([x] + xs)) == Some([x] + xs)
  {
    IntToStringPiece(x);
    ParseIntRoundTrip(x);
    ParsePiecesCons(IntToString(x), Pieces(xs), x, xs);
    assert ([x] + xs)[1..] == xs;
  }

  lemma {:induction false} ParsePiecesOfRendered(ts: seq<int>)
    ensures ParsePieces(Pieces(ts)) == Some(ts)
    decreases |ts|
  {
    if ts != [] {
      ParsePiecesOfRendered(ts[1..]);
      RenderedStep(ts[0], ts[1..]);
      assert [ts[0]] + ts[1..] == ts;
    }
  }

  /** Writing a threshold list back as comma-separated text and parsing it
      again gives the same list. */
  lemma ThresholdsRoundTrip(ts: seq<int>)
    ensures ParseThresholds(RenderThresholds(ts)) == Some(ts)
  {
    var pieces := Pieces(ts);
    if ts == [] {
      assert RenderThresholds(ts) == [];
      assert Split([], ',') == [[]];
    } else {
      forall i | 0 <= i < |pieces|
        ensures ',' !in pieces[i]
      {
        IntToStringPiece(ts[i]);
      }
      SplitJoin(pieces, ',');
      ParsePiecesOfRendered(ts);
    }
  }

  /** With the variable unset the daemon watches 120 and 160. */
  lemma DefaultIsTwoThresholds()
    ensures ParseThresholds(DefaultThresholds) == Some([120, 160])
  {
    assert IntToString(120) == "120" by {
      assert NatToDecimal(120) == NatToDecimal(12) + [DigitChar(0)];
      assert NatToDecimal(12) == NatToDecimal(1) + [DigitChar(2)];
    }
    assert IntToString(160) == "160" by {
      assert NatToDecimal(160) == NatToDecimal(16) + [DigitChar(0)];
      assert NatToDecimal(16) == NatToDecimal(1) + [DigitChar(6)];
    }
    assert Pieces([120, 160]) == ["120", "160"] by {
      assert Pieces([120, 160]) == [IntToString(120)] + Pieces([160]);
      assert Pieces([160]) == [IntToString(160)] + Pieces([]);
    }
    assert RenderThresholds([120, 160]) == "120,160" by {
      assert Join(["120", "160"], ',') == "120" + [','] + Join(["160"], ',');
    }
    ThresholdsRoundTrip([120, 160]);
  }

  // ---------------------------------------------------------------------------
  // The state document
  // ---------------------------------------------------------------------------

  /** `state["resin_alerts"][day_key][str(threshold)]`. */
  type DayAlerts = map<string, bool>
  type AlertBook = map<string, DayAlerts>

  /** The top-level JSON object: its "resin_alerts" member, if any. */
  datatype StateDoc = StateDoc(resinAlerts: Option<AlertBook>)

  /** What `json.load` produced from the state file. */
  datatype Loaded = Object(doc: StateDoc) | NonObject

  /** The state file as the next cycle finds it. */
  datatype StoredFile = NoFile | Unreadable | Parsed(value: Loaded)

  const EmptyDoc := StateDoc(None)

  function SaveState(doc: StateDoc): StoredFile {
    Parsed(Object(doc))
  }

  /** `load_state()` as written: a missing or unreadable file gives `{}`, but
      any JSON value that parses is returned as it is, object or not. */
  function LoadStateAsWritten(f: StoredFile): (r: Loaded)
    ensures f.NoFile? || f.Unreadable? ==> r == Object(EmptyDoc)
    ensures forall d :: f == SaveState(d) ==> r == Object(d)
  {
    match f
    case NoFile => Object(EmptyDoc)
    case Unreadable => Object(EmptyDoc)
    case Parsed(v) => v
  }

  /** `load_state()` with corruption of every kind read as an empty document:
      what was saved comes back, and anything else is empty. */
  function LoadState(f: StoredFile): (r: StateDoc)
    ensures forall d :: f == SaveState(d) ==> r == d
    ensures !(f.Parsed? && f.value.Object?) ==> r == EmptyDoc
  {
    match f
    case Parsed(Object(d)) => d
    case _ => EmptyDoc
  }

  function Book(doc: StateDoc): AlertBook {
    doc.resinAlerts.GetOr(map[])
  }

  /** Today's entries, empty when the day has none yet (`setdefault`). */
  function DayOf(doc: StateDoc, dayKey: string): DayAlerts {
    var book := Book(doc);
    if dayKey in book then book[dayKey] else map[]
  }

  predicate Marked(day: DayAlerts, thr: int) {
    var k := IntToString(thr);
    k in day && day[k]
  }

  /** The firing condition of app.py:165. */
  predicate Eligible(resin: int, day: DayAlerts, thr: int) {
    !Marked(day, thr) && resin >= thr
  }

  function FiredKeys(fired: seq<int>): set<string> {
    set t | t in fired :: IntToString(t)
  }

  predicate NoDuplicates(s: seq<int>) {
    forall i, j :: 0 <= i < j < |s| ==> s[i] != s[j]
  }

  /** Where `t` first appears in the configured list. */
  function IndexOf(ts: seq<int>, t: int): (k: nat)
    requires t in ts
    ensures k < |ts| && ts[k] == t && t !in ts[..k]
    decreases |ts|
  {
    if ts[0] == t then 0
    else
      assert ts == [ts[0]] + ts[1..];
      var k := 1 + IndexOf(ts[1..], t);
      assert ts[..k] == [ts[0]] + ts[1..][..k - 1];
      k
  }

  /** Every element of `s` is listed, and `s` follows the configured order. */
  ghost predicate InListOrder(ts: seq<int>, s: seq<int>) {
    && (forall t :: t in s ==> t in ts)
    && (forall i, j :: 0 <= i < j < |s| ==> IndexOf(ts, s[i]) < IndexOf(ts, s[j]))
  }

  // ---------------------------------------------------------------------------
  // maybe_fire_resin_alerts
  // ---------------------------------------------------------------------------

  /** `post_slack_text` raised for `threshold`; `posted` are the thresholds
      whose alerts went out earlier in the same call. */
  datatype AlertError =
    | PostFailed(posted: seq<int>, threshold: int)
    | StateNotAnObject

  /** The in-memory state after the call, the thresholds that fired (in
      order) and whether `save_state` ran. */
  datatype AlertRun = AlertRun(doc: StateDoc, fired: seq<int>, saved: bool)

  lemma MarkOne(day: DayAlerts, thr: int, t: int)
    ensures Marked(day[IntToString(thr) := true], t) <==> Marked(day, t) || t == thr
  {
    IntToStringInjective(thr, t);
  }

  /** The loop of app.py:162-170 over the thresholds still to visit. */
  function FireLoop(resin: int, ts: seq<int>, day: DayAlerts, delivered: int -> bool)
    : (r: Result<(DayAlerts, seq<int>), AlertError>)
    // the call succeeds exactly when every post it attempts succeeds
    ensures r.Ok? <==> forall t :: t in ts && Eligible(resin, day, t) ==> delivered(t)
    // a threshold fires iff it is listed, not yet marked and reached
    ensures r.Ok? ==> forall t :: t in r.value.1 <==> t in ts && Eligible(resin, day, t)
    ensures r.Ok? ==> (r.value.1 == [] <==> forall t :: t in ts ==> !Eligible(resin, day, t))
    ensures r.Ok? ==> NoDuplicates(r.value.1)
    // the fired entries become true; nothing else changes
    ensures r.Ok? ==> forall k :: k in r.value.0 <==> k in day || k in FiredKeys(r.value.1)
    ensures r.Ok? ==> forall k :: k in r.value.0 ==>
      r.value.0[k] == (k in FiredKeys(r.value.1) || (k in day && day[k]))
    ensures r.Err? ==> r.error.PostFailed?
    ensures r.Err? ==>
      var thr := r.error.threshold;
      thr in ts && Eligible(resin, day, thr) && !delivered(thr)
    ensures r.Err? ==> forall t :: t in r.error.posted ==> t in ts && Eligible(resin, day, t) && delivered(t)
    decreases |ts|
  {
    if ts == [] then Ok((day, []))
    else
      var thr := ts[0];
      var k := IntToString(thr);
      if Eligible(resin, day, thr) then
        if !delivered(thr) then Err(PostFailed([], thr))
        else
          var day' := day[k := true];
          FireStep(resin, ts, day, thr);
          match FireLoop(resin, ts[1..], day', delivered)
          case Ok((d, fired)) => Ok((d, [thr] + fired))
          case Err(e) => Err(PostFailed([thr] + e.posted, e.threshold))
      else
        FireSkip(resin, ts, day, thr);
        FireLoop(resin, ts[1..], day, delivered)
  }

  /** The loop walks the list in order: what fires follows the configured
      order, and a failure names the first due threshold whose post failed,
      after exactly the due thresholds listed before it. */
  lemma {:induction false} FireLoopOrder(resin: int, ts: seq<int>, day: DayAlerts, delivered: int -> bool)
    ensures var r := FireLoop(resin, ts, day, delivered);
            r.Ok? ==> InListOrder(ts, r.value.1)
    ensures var r := FireLoop(resin, ts, day, delivered);
            r.Err? ==>
              && InListOrder(ts, r.error.posted) && NoDuplicates(r.error.posted)
              && forall t :: t in r.error.posted <==>
                   t in ts && Eligible(resin, day, t) && IndexOf(ts, t) < IndexOf(ts, r.error.threshold)
    decreases |ts|
  {
    if ts != [] {
      var thr, tail := ts[0], ts[1..];
      assert ts == [thr] + tail;
      if Eligible(resin, day, thr) {
        if delivered(thr) {
          var day' := day[IntToString(thr) := true];
          FireStep(resin, ts, day, thr);
          FireLoopOrder(resin, tail, day', delivered);
          var r' := FireLoop(resin, tail, day', delivered);
          if r'.Ok? {
            ConsInOrder(ts, r'.value.1);
          } else {
            ConsInOrder(ts, r'.error.posted);
            assert r'.error.threshold != thr;
            forall t
              ensures t in [thr] + r'.error.posted <==>
                      t in ts && Eligible(resin, day, t) && IndexOf(ts, t) < IndexOf(ts, r'.error.threshold)
            {
              if t != thr && t in ts {
                assert t in tail;
              }
            }
          }
        }
      } else {
        FireLoopOrder(resin, tail, day, delivered);
        var r' := FireLoop(resin, tail, day, delivered);
        if r'.Ok? {
          TailInOrder(ts, r'.value.1);
        } else {
          TailInOrder(ts, r'.error.posted);
          forall t
            ensures t in r'.error.posted <==>
                    t in ts && Eligible(resin, day, t) && IndexOf(ts, t) < IndexOf(ts, r'.error.threshold)
          {
            if t != thr && t in ts {
              assert t in tail;
            }
          }
        }
      }
    }
  }

  /** Putting the list's head in front of what follows it in the tail keeps
      the configured order. */
  lemma ConsInOrder(ts: seq<int>, s: seq<int>)
    requires ts != [] && ts[0] !in s
    requires InListOrder(ts[1..], s)
    ensures InListOrder(ts, [ts[0]] + s)
  {
    var c := [ts[0]] + s;
    assert ts == [ts[0]] + ts[1..];
    forall i, j | 0 <= i < j < |c|
      ensures IndexOf(ts, c[i]) < IndexOf(ts, c[j])
    {
      assert c[j] == s[j - 1] && c[j] in s;
      if i > 0 {
        assert c[i] == s[i - 1] && c[i] in s;
        assert IndexOf(ts[1..], s[i - 1]) < IndexOf(ts[1..], s[j - 1]);
      }
    }
  }

  /** What follows the configured order of the tail, and avoids the head,
      follows that of the whole list. */
  lemma TailInOrder(ts: seq<int>, s: seq<int>)
    requires ts != [] && ts[0] !in s
    requires InListOrder(ts[1..], s)
    ensures InListOrder(ts, s)
  {
    assert ts == [ts[0]] + ts[1..];
    forall i, j | 0 <= i < j < |s|
      ensures IndexOf(ts, s[i]) < IndexOf(ts, s[j])
    {
      assert s[i] in s && s[j] in s;
      assert IndexOf(ts[1..], s[i]) < IndexOf(ts[1..], s[j]);
    }
  }

  lemma FireStep(resin: int, ts: seq<int>, day: DayAlerts, thr: int)
    requires ts != [] && thr == ts[0] && Eligible(resin, day, thr)
    ensures forall t :: t in ts <==> t == thr || t in ts[1..]
    ensures forall t :: Eligible(resin, day[IntToString(thr) := true], t) <==> Eligible(resin, day, t) && t != thr
  {
    assert ts == [thr] + ts[1..];
    forall t
      ensures Eligible(resin, day[IntToString(thr) := true], t) <==> Eligible(resin, day, t) && t != thr
    {
      MarkOne(day, thr, t);
    }
  }

  lemma FireSkip(resin: int, ts: seq<int>, day: DayAlerts, thr: int)
    requires ts != [] && thr == ts[0] && !Eligible(resin, day, thr)
    ensures forall t :: t in ts && Eligible(resin, day, t) <==> t in ts[1..] && Eligible(resin, day, t)
  {
    assert ts == [thr] + ts[1..];
  }

  /** `maybe_fire_resin_alerts(resin_now, state)` on a state document, with
      today's key and the outcome of each Slack post passed in. */
  function FireResinAlerts(resin: int, ts: seq<int>, doc: StateDoc, dayKey: string,
                           delivered: int -> bool): (r: Result<AlertRun, AlertError>)
    ensures r.Ok? <==> forall t :: t in ts && Eligible(resin, DayOf(doc, dayKey), t) ==> delivered(t)
    ensures r.Ok? ==> FiredAsPromised(resin, ts, doc, dayKey, r.value)
    ensures r.Err? ==> FailedAsPromised(resin, ts, doc, dayKey, delivered, r.error)
  {
    FireLoopOrder(resin, ts, DayOf(doc, dayKey), delivered);
    var res :- FireLoop(resin, ts, DayOf(doc, dayKey), delivered);
    LoopKeepsPromise(resin, ts, doc, dayKey, delivered, res.0, res.1);
    Ok(AlertRun(StateDoc(Some(Book(doc)[dayKey := res.0])), res.1, |res.1| > 0))
  }

  lemma LoopKeepsPromise(resin: int, ts: seq<int>, doc: StateDoc, dayKey: string,
                         delivered: int -> bool, newDay: DayAlerts, fired: seq<int>)
    requires FireLoop(resin, ts, DayOf(doc, dayKey), delivered) == Ok((newDay, fired))
    ensures FiredAsPromised(resin, ts, doc, dayKey,
                            AlertRun(StateDoc(Some(Book(doc)[dayKey := newDay])), fired, |fired| > 0))
  {
    var doc' := StateDoc(Some(Book(doc)[dayKey := newDay]));
    var before := DayOf(doc, dayKey);
    assert DayOf(doc', dayKey) == newDay;
    assert OtherDaysKept(doc, dayKey, doc');
    FireLoopOrder(resin, ts, before, delivered);
    assert FiresExactlyDue(resin, ts, before, fired);
    LoopMarksOnlyFired(before, newDay, fired);
    if fired == [] {
      assert FiredKeys(fired) == {};
      assert newDay == before;
    }
  }

  lemma LoopMarksOnlyFired(before: DayAlerts, after: DayAlerts, fired: seq<int>)
    requires forall k :: k in after <==> k in before || k in FiredKeys(fired)
    requires forall k :: k in after ==> after[k] == (k in FiredKeys(fired) || (k in before && before[k]))
    ensures MarksOnlyFired(before, after, fired)
  {
    forall t | t in fired
      ensures Marked(after, t)
    {
      assert IntToString(t) in FiredKeys(fired);
    }
  }

  /** What a successful call promises about its result. */
  ghost predicate FiredAsPromised(resin: int, ts: seq<int>, doc: StateDoc, dayKey: string, run: AlertRun) {
    var before, after := DayOf(doc, dayKey), DayOf(run.doc, dayKey);
    && OtherDaysKept(doc, dayKey, run.doc)
    && FiresExactlyDue(resin, ts, before, run.fired)
    && MarksOnlyFired(before, after, run.fired)
    && (run.saved <==> run.fired != [])
    && (!run.saved ==> after == before)
  }

  /** Today's entry exists afterwards; every other day is untouched. */
  ghost predicate OtherDaysKept(doc: StateDoc, dayKey: string, doc': StateDoc) {
    && dayKey in Book(doc')
    && (forall d :: d != dayKey ==> (d in Book(doc') <==> d in Book(doc)))
    && (forall d :: d != dayKey && d in Book(doc') ==> Book(doc')[d] == Book(doc)[d])
  }

  /** A threshold fires iff it is listed, not yet marked today and reached;
      none fires twice, and they fire in the configured order. */
  ghost predicate FiresExactlyDue(resin: int, ts: seq<int>, before: DayAlerts, fired: seq<int>) {
    && (forall t :: t in fired <==> t in ts && Eligible(resin, before, t))
    && (fired == [] <==> forall t :: t in ts ==> !Eligible(resin, before, t))
    && NoDuplicates(fired)
    && InListOrder(ts, fired)
  }

  /** Fired entries are marked, marked entries stay marked, nothing else
      changes. */
  ghost predicate MarksOnlyFired(before: DayAlerts, after: DayAlerts, fired: seq<int>) {
    && (forall t :: t in fired ==> Marked(after, t))
    && (forall k :: k in before && before[k] ==> k in after && after[k])
    && (forall k :: k in after ==> (k in before && after[k] == before[k]) || k in FiredKeys(fired))
  }

  /** What a failed post promises: the threshold was due and its post
      failed, and it is the first such one in the configured order; the posts
      that went out before it are exactly the due thresholds listed before
      it, in order. */
  ghost predicate FailedAsPromised(resin: int, ts: seq<int>, doc: StateDoc, dayKey: string,
                             delivered: int -> bool, e: AlertError) {
    && e.PostFailed?
    && e.threshold in ts && Eligible(resin, DayOf(doc, dayKey), e.threshold) && !delivered(e.threshold)
    && (forall t :: t in e.posted ==> t in ts && Eligible(resin, DayOf(doc, dayKey), t) && delivered(t))
    && (forall t :: t in e.posted <==>
          t in ts && Eligible(resin, DayOf(doc, dayKey), t) && IndexOf(ts, t) < IndexOf(ts, e.threshold))
    && InListOrder(ts, e.posted) && NoDuplicates(e.posted)
  }

  /** The file after the call: rewritten with the new document iff the call
      reached `save_state`. */
  function Persist(before: StoredFile, r: Result<AlertRun, AlertError>): (f: StoredFile)
    ensures f != before ==> r.Ok? && r.value.saved
    ensures r.Ok? && r.value.saved ==> f == SaveState(r.value.doc)
  {
    if r.Ok? && r.value.saved then SaveState(r.value.doc) else before
  }

  /** `maybe_fire_resin_alerts` on whatever `load_state` returned: a
      non-object value has no `setdefault`, so the call raises before any
      threshold is looked at. */
  function FireOnLoadedAsWritten(resin: int, ts: seq<int>, loaded: Loaded, dayKey: string,
                                 delivered: int -> bool): (r: Result<AlertRun, AlertError>)
    ensures loaded.NonObject? ==> r == Err(StateNotAnObject)
    ensures loaded.Object? ==> r == FireResinAlerts(resin, ts, loaded.doc, dayKey, delivered)
  {
    match loaded
    case NonObject => Err(StateNotAnObject)
    case Object(doc) => FireResinAlerts(resin, ts, doc, dayKey, delivered)
  }

  // ---------------------------------------------------------------------------
  // Properties
  // ---------------------------------------------------------------------------

  /** Running again on the same day with no more resin than before fires
      nothing and writes nothing: each threshold fires at most once a day,
      and a drop in resin never un-fires one. */
  lemma {:induction false} AlertsIdempotent(resin: int, later: int, ts: seq<int>, doc: StateDoc,
                                            dayKey: string, delivered: int -> bool, deliveredLater: int -> bool)
    requires FireResinAlerts(resin, ts, doc, dayKey, delivered).Ok?
    requires later <= resin
    ensures var again := FireResinAlerts(later, ts, FireResinAlerts(resin, ts, doc, dayKey, delivered).value.doc,
                                         dayKey, deliveredLater);
            again.Ok? && again.value.fired == [] && !again.value.saved
  {
    var run := FireResinAlerts(resin, ts, doc, dayKey, delivered).value;
    var before, after := DayOf(doc, dayKey), DayOf(run.doc, dayKey);
    forall t | t in ts
      ensures !Eligible(later, after, t)
    {
      if later >= t && !Marked(before, t) {
        assert t in run.fired;
      }
    }
    var again := FireResinAlerts(later, ts, run.doc, dayKey, deliveredLater);
  }

  /** A failed post is retried: the state file was not rewritten, so the next
      cycle on the same day sees the failed threshold, and every threshold
      posted before it in the failed call, as still due. */
  lemma FailedPostIsRetried(resin: int, ts: seq<int>, doc: StateDoc, dayKey: string,
                            delivered: int -> bool, f: StoredFile)
    requires FireResinAlerts(resin, ts, doc, dayKey, delivered).Err?
    ensures Persist(f, FireResinAlerts(resin, ts, doc, dayKey, delivered)) == f
    ensures var e := FireResinAlerts(resin, ts, doc, dayKey, delivered).error;
            var again := FireResinAlerts(resin, ts, doc, dayKey, t => true);
            again.Ok? && e.threshold in again.value.fired
            && forall t :: t in e.posted ==> t in again.value.fired
  {
  }

  lemma SingleDistinct(s: seq<int>, x: int)
    requires s != [] && NoDuplicates(s)
    requires forall t :: t in s ==> t == x
    ensures s == [x]
  {
    // the first and the last element are both x, so they are the same one
    assert s[0] in s && s[|s| - 1] in s;
    assert |s| == 1;
    assert s == [s[0]];
  }

  /** When exactly one listed threshold is due and its post succeeds, the
      call fires that threshold alone. */
  lemma FiresExactlyOne(resin: int, ts: seq<int>, doc: StateDoc, dayKey: string, thr: int)
    requires thr in ts && Eligible(resin, DayOf(doc, dayKey), thr)
    requires forall t :: t in ts && t != thr ==> !Eligible(resin, DayOf(doc, dayKey), t)
    ensures var r := FireResinAlerts(resin, ts, doc, dayKey, t => true);
            r.Ok? && r.value.fired == [thr]
  {
    var r := FireResinAlerts(resin, ts, doc, dayKey, t => true);
    assert thr in r.value.fired;
    SingleDistinct(r.value.fired, thr);
  }

  /** Resin 150 on a fresh day fires 120 alone. */
  lemma ReferenceFirstCall(dayKey: string)
    ensures var first := FireResinAlerts(150, [120, 160], EmptyDoc, dayKey, t => true);
            && first.Ok? && first.value.fired == [120]
            && Marked(DayOf(first.value.doc, dayKey), 120) && !Marked(DayOf(first.value.doc, dayKey), 160)
  {
    assert DayOf(EmptyDoc, dayKey) == map[];
    FiresExactlyOne(150, [120, 160], EmptyDoc, dayKey, 120);
    var first := FireResinAlerts(150, [120, 160], EmptyDoc, dayKey, t => true);
    IntToStringInjective(120, 160);
    assert IntToString(160) !in FiredKeys(first.value.fired);
  }

  /** Once 120 is marked and 160 is not, resin 170 fires 160 alone. */
  lemma ReferenceSecondCall(doc: StateDoc, dayKey: string)
    requires Marked(DayOf(doc, dayKey), 120) && !Marked(DayOf(doc, dayKey), 160)
    ensures var second := FireResinAlerts(170, [120, 160], doc, dayKey, t => true);
            second.Ok? && second.value.fired == [160]
  {
    FiresExactlyOne(170, [120, 160], doc, dayKey, 160);
  }

  /** The reference sequence of calls on one day with thresholds 120 and 160:
      150 fires 120, then 170 fires only 160, then 50 fires nothing. */
  lemma ReferenceDay(dayKey: string)
    ensures var first := FireResinAlerts(150, [120, 160], EmptyDoc, dayKey, t => true);
            && first.Ok? && first.value.fired == [120]
            && var second := FireResinAlerts(170, [120, 160], first.value.doc, dayKey, t => true);
            && second.Ok? && second.value.fired == [160]
            && var third := FireResinAlerts(50, [120, 160], second.value.doc, dayKey, t => true);
            && third.Ok? && third.value.fired == [] && DayOf(third.value.doc, dayKey) == DayOf(second.value.doc, dayKey)
  {
    ReferenceFirstCall(dayKey);
    var first := FireResinAlerts(150, [120, 160], EmptyDoc, dayKey, t => true);
    ReferenceSecondCall(first.value.doc, dayKey);
    AlertsIdempotent(170, 50, [120, 160], first.value.doc, dayKey, t => true, t => true);
  }

  /** A state file holding valid JSON that is not an object (`[]`, `null`,
      `0`) passes `load_state` unchanged, and the next `setdefault` raises:
      every cycle ends there, whatever the resin, before any alert or report. */
  lemma NonObjectStateRaisesEveryCycle(resin: int, ts: seq<int>, dayKey: string, delivered: int -> bool)
    ensures FireOnLoadedAsWritten(resin, ts, LoadStateAsWritten(Parsed(NonObject)), dayKey, delivered)
         == Err(StateNotAnObject)
  {
  }

  /** With every unusable file read as empty, such a file behaves like a
      missing one and the call can fail only on a Slack post. */
  lemma CorruptStateReadsAsEmpty(resin: int, ts: seq<int>, dayKey: string, delivered: int -> bool, f: StoredFile)
    requires f == NoFile || f == Unreadable || f == Parsed(NonObject)
    ensures FireResinAlerts(resin, ts, LoadState(f), dayKey, delivered)
         == FireResinAlerts(resin, ts, LoadState(NoFile), dayKey, delivered)
    ensures FireResinAlerts(resin, ts, LoadState(f), dayKey, delivered).Err? ==>
            FireResinAlerts(resin, ts, LoadState(f), dayKey, delivered).error.PostFailed?
  {
  }
}

=== FILE: base.dfy ===
/** Failure-compatible wrappers shared by every module of the model: Option for
    values Python represents as `None`-or-something, Result for operations that
    may raise. */
module Base {

  datatype Option<+T> = None | Some(value: T) {

    function GetOr(default: T): T {
      match this
      case Some(v) => v
      case None => default
    }
  }

  datatype Result<+T, +E> = Ok(value: T) | Err(error: E) {

    predicate IsFailure() {
      Err?
    }

    function PropagateFailure<U>(): Result<U, E>
      requires Err?
    {
      Err(error)
    }

    function Extract(): T
      requires Ok?
    {
      value
    }

    /** The same outcome with the error translated by `f`. */
    function MapError<E2>(f: E -> E2): (r: Result<T, E2>)
      ensures r.Ok? <==> Ok?
      ensures Ok? ==> r.value == value
    {
      match this
      case Ok(v) => Ok(v)
      case Err(e) => Err(f(e))
    }
  }
}

=== FILE: calendar.dfy ===
/** The Spiral Abyss reset rule (`next_abyss_reset_na`, app.py:135-151): the
    next 04:00 local time on the 1st or the 16th of a month, as seen from a
    wall-clock "now" in the server's timezone.

    Date-times are Python `datetime` values reduced to their seven fields; the
    timezone is the same on both sides of every comparison, so only wall-clock
    fields matter. */
module Calendar {
  import opened Base

  const MinYear := 1
  const MaxYear := 9999
  const ResetHour := 4
  const MicrosPerDay := 86400000000

  datatype DateTime = DateTime(year: int, month: int, day: int,
                               hour: int, minute: int, second: int, micro: int)

  /** `datetime(...)` raised ValueError: the year left Python's range. */
  datatype CalendarError = YearOutOfRange

  /** The pair `next_abyss_reset_na` returns: the target and `target - now`. */
  datatype AbyssReset = AbyssReset(target: DateTime, deltaMicros: int)

  predicate IsLeapYear(y: int) {
    y % 4 == 0 && (y % 100 != 0 || y % 400 == 0)
  }

  function DaysInMonth(y: int, m: int): (n: int)
    requires 1 <= m <= 12
    ensures 28 <= n <= 31
  {
    if m == 2 then (if IsLeapYear(y) then 29 else 28)
    else if m == 4 || m == 6 || m == 9 || m == 11 then 30
    else 31
  }

  /** Every field within the range Python's `datetime` constructor accepts. */
  predicate Valid(t: DateTime) {
    && MinYear <= t.year <= MaxYear
    && 1 <= t.month <= 12
    && 1 <= t.day <= DaysInMonth(t.year, t.month)
    && 0 <= t.hour < 24
    && 0 <= t.minute < 60
    && 0 <= t.second < 60
    && 0 <= t.micro < 1000000
  }

  predicate TimeBefore(a: DateTime, b: DateTime) {
    || a.hour < b.hour
    || (a.hour == b.hour && a.minute < b.minute)
    || (a.hour == b.hour && a.minute == b.minute && a.second < b.second)
    || (a.hour == b.hour && a.minute == b.minute && a.second == b.second && a.micro < b.micro)
  }

  predicate SameDate(a: DateTime, b: DateTime) {
    a.year == b.year && a.month == b.month && a.day == b.day
  }

  predicate DateBefore(a: DateTime, b: DateTime) {
    || a.year < b.year
    || (a.year == b.year && a.month < b.month)
    || (a.year == b.year && a.month == b.month && a.day < b.day)
  }

  /** Strict lexicographic order on (date, time of day). */
  predicate Before(a: DateTime, b: DateTime) {
    DateBefore(a, b) || (SameDate(a, b) && TimeBefore(a, b))
  }

  /** An Abyss reset: 04:00:00.000000 on the 1st or the 16th. */
  predicate IsResetInstant(t: DateTime) {
    (t.day == 1 || t.day == 16) && t.hour == ResetHour && t.minute == 0 && t.second == 0 && t.micro == 0
  }

  function ResetOn(y: int, m: int, d: int): DateTime {
    DateTime(y, m, d, ResetHour, 0, 0, 0)
  }

  /** The 16th's reset of this month has already happened (or is happening). */
  predicate PastSecondReset(now: DateTime) {
    now.day > 16 || (now.day == 16 && now.hour >= ResetHour)
  }

  // ---------------------------------------------------------------------------
  // Wall-clock arithmetic (Python's naive subtraction of same-tzinfo datetimes)
  // ---------------------------------------------------------------------------

  function DaysInYear(y: int): int {
    if IsLeapYear(y) then 366 else 365
  }

  /** Days in the years 1 .. y-1, the closed form Python's `date.toordinal` uses. */
  function DaysBeforeYear(y: int): int
    requires y >= 1
  {
    var p := y - 1;
    p * 365 + p / 4 - p / 100 + p / 400
  }

  /** Days in the months before month `m` of year `y`. */
  function DaysBeforeMonth(y: int, m: int): int
    requires 1 <= m <= 12
  {
    var leap := if m > 2 && IsLeapYear(y) then 1 else 0;
    leap + (if m == 1 then 0 else if m == 2 then 31 else if m == 3 then 59
            else if m == 4 then 90 else if m == 5 then 120 else if m == 6 then 151
            else if m == 7 then 181 else if m == 8 then 212 else if m == 9 then 243
            else if m == 10 then 273 else if m == 11 then 304 else 334)
  }

  /** Python's `date.toordinal()`: 1 for 0001-01-01. */
  function Ordinal(t: DateTime): int
    requires Valid(t)
  {
    DaysBeforeYear(t.year) + DaysBeforeMonth(t.year, t.month) + t.day
  }

  function MicrosOfDay(t: DateTime): int {
    ((t.hour * 60 + t.minute) * 60 + t.second) * 1000000 + t.micro
  }

  lemma MicrosOfDayBounds(t: DateTime)
    requires Valid(t)
    ensures 0 <= MicrosOfDay(t) < MicrosPerDay
  {
  }

  /** `b - a` in microseconds for two datetimes sharing one tzinfo: calendar
      days times 24 hours plus the difference of the clock readings. */
  function WallDeltaMicros(a: DateTime, b: DateTime): (r: int)
    requires Valid(a) && Valid(b)
    ensures a == b ==> r == 0
    // whole calendar days apart, give or take less than a day of clock
    // readings; no UTC offset enters, so a DST change is not accounted for
    ensures -MicrosPerDay < r - (Ordinal(b) - Ordinal(a)) * MicrosPerDay < MicrosPerDay
  {
    MicrosOfDayBounds(a);
    MicrosOfDayBounds(b);
    (Ordinal(b) - Ordinal(a)) * MicrosPerDay + MicrosOfDay(b) - MicrosOfDay(a)
  }

  // ---------------------------------------------------------------------------
  // next_abyss_reset_na
  // ---------------------------------------------------------------------------

  /** The target `next_abyss_reset_na` picks, or the ValueError that
      `datetime(10000, 1, 1, ...)` raises after the last reset of year 9999. */
  function NextResetTarget(now: DateTime): (r: Result<DateTime, CalendarError>)
    requires Valid(now)
    ensures r.Ok? ==> Valid(r.value) && IsResetInstant(r.value) && Before(now, r.value)
    ensures r.Err? <==> now.year == MaxYear && now.month == 12 && PastSecondReset(now)
    // before the 16th's reset: this month; otherwise the 1st of the next month
    ensures r.Ok? && !PastSecondReset(now) ==> r.value.year == now.year && r.value.month == now.month
    ensures r.Ok? && PastSecondReset(now) ==>
      && r.value.day == 1
      && (now.month < 12 ==> r.value.year == now.year && r.value.month == now.month + 1)
      && (now.month == 12 ==> r.value.year == now.year + 1 && r.value.month == 1)
  {
    var y, m, d := now.year, now.month, now.day;
    if d < 1 || (d == 1 && now.hour < ResetHour) then Ok(ResetOn(y, m, 1))
    else if d < 16 || (d == 16 && now.hour < ResetHour) then Ok(ResetOn(y, m, 16))
    else
      var y2 := if m == 12 then y + 1 else y;
      var m2 := if m == 12 then 1 else m + 1;
      if y2 > MaxYear then Err(YearOutOfRange) else Ok(ResetOn(y2, m2, 1))
  }

  /** `next_abyss_reset_na()` with the local "now" passed in: the target and
      the wall-clock time left until it, which is positive and at most 16 days. */
  function NextAbyssResetNa(now: DateTime): (r: Result<AbyssReset, CalendarError>)
    requires Valid(now)
    ensures r.Ok? <==> NextResetTarget(now).Ok?
    ensures r.Ok? ==> r.value.target == NextResetTarget(now).value
    ensures r.Ok? ==> r.value.deltaMicros == WallDeltaMicros(now, r.value.target)
    ensures r.Ok? ==> 0 < r.value.deltaMicros <= 16 * MicrosPerDay
  {
    var target :- NextResetTarget(now);
    DeltaPositive(now, target);
    ResetWithinSixteenDays(now);
    Ok(AbyssReset(target, WallDeltaMicros(now, target)))
  }

  // ---------------------------------------------------------------------------
  // Properties
  // ---------------------------------------------------------------------------

  /** The chosen target is the earliest reset after now: no valid reset lies
      strictly between them. */
  lemma NextResetIsEarliest(now: DateTime, r: DateTime)
    requires Valid(now) && NextResetTarget(now).Ok?
    requires Valid(r) && IsResetInstant(r) && Before(now, r)
    ensures !Before(r, NextResetTarget(now).value)
  {
  }

  /** The constructor raises exactly when no later reset fits in the
      representable range. */
  lemma NoResetAfterLastOne(now: DateTime, r: DateTime)
    requires Valid(now) && NextResetTarget(now).Err?
    requires Valid(r) && IsResetInstant(r)
    ensures !Before(now, r)
  {
  }

  lemma YearStep(y: int)
    requires y >= 1
    ensures DaysBeforeYear(y + 1) == DaysBeforeYear(y) + DaysInYear(y)
  {
    var p := y - 1;
    assert (p + 1) / 4 == p / 4 + (if y % 4 == 0 then 1 else 0);
    assert (p + 1) / 100 == p / 100 + (if y % 100 == 0 then 1 else 0);
    assert (p + 1) / 400 == p / 400 + (if y % 400 == 0 then 1 else 0);
  }

  lemma {:induction false} DaysBeforeYearMonotone(y1: int, y2: int)
    requires 1 <= y1 <= y2
    ensures DaysBeforeYear(y1) + 365 * (y2 - y1) <= DaysBeforeYear(y2)
    decreases y2 - y1
  {
    if y1 < y2 {
      YearStep(y1);
      DaysBeforeYearMonotone(y1 + 1, y2);
    }
  }

  lemma MonthStep(y: int, m: int)
    requires 1 <= m < 12
    ensures DaysBeforeMonth(y, m + 1) == DaysBeforeMonth(y, m) + DaysInMonth(y, m)
  {
  }

  lemma {:induction false} DaysBeforeMonthMonotone(y: int, m1: int, m2: int)
    requires 1 <= m1 < m2 <= 12
    ensures DaysBeforeMonth(y, m1) + DaysInMonth(y, m1) <= DaysBeforeMonth(y, m2)
    decreases m2 - m1
  {
    MonthStep(y, m1);
    if m1 + 1 < m2 {
      DaysBeforeMonthMonotone(y, m1 + 1, m2);
    }
  }

  lemma EndOfYear(y: int)
    requires y >= 1
    ensures DaysBeforeMonth(y, 12) + 31 == DaysInYear(y)
  {
  }

  /** A strictly earlier calendar date has a strictly smaller ordinal. */
  lemma OrdinalMonotone(a: DateTime, b: DateTime)
    requires Valid(a) && Valid(b) && DateBefore(a, b)
    ensures Ordinal(a) < Ordinal(b)
  {
    if a.year < b.year {
      if a.month < 12 {
        DaysBeforeMonthMonotone(a.year, a.month, 12);
      }
      EndOfYear(a.year);
      YearStep(a.year);
      DaysBeforeYearMonotone(a.year + 1, b.year);
    } else if a.month < b.month {
      DaysBeforeMonthMonotone(a.year, a.month, b.month);
    }
  }

  /** The wall-clock difference is positive exactly when `a` comes before `b`. */
  lemma DeltaPositive(a: DateTime, b: DateTime)
    requires Valid(a) && Valid(b)
    ensures WallDeltaMicros(a, b) > 0 <==> Before(a, b)
  {
    if Before(a, b) {
      if DateBefore(a, b) {
        OrdinalMonotone(a, b);
      }
    } else if a != b {
      assert Before(b, a);
      if DateBefore(b, a) {
        OrdinalMonotone(b, a);
      }
    }
  }

  /** Resets are at most 16 days apart, so the wait never exceeds that. */
  lemma ResetWithinSixteenDays(now: DateTime)
    requires Valid(now) && NextResetTarget(now).Ok?
    ensures WallDeltaMicros(now, NextResetTarget(now).value) <= 16 * MicrosPerDay
  {
    var t := NextResetTarget(now).value;
    if PastSecondReset(now) {
      if now.month < 12 {
        MonthStep(now.year, now.month);
      } else {
        EndOfYear(now.year);
        YearStep(now.year);
      }
      assert Ordinal(t) - Ordinal(now) == DaysInMonth(now.year, now.month) + 1 - now.day;
    }
  }

  /** The three reference cases: mid-month before the 16th, exactly at the
      16th's reset, and the December roll-over into the next year. */
  lemma ReferenceCases()
    ensures NextResetTarget(DateTime(2024, 3, 10, 3, 0, 0, 0)) == Ok(ResetOn(2024, 3, 16))
    ensures NextResetTarget(DateTime(2024, 3, 16, 4, 0, 0, 0)) == Ok(ResetOn(2024, 4, 1))
    ensures NextResetTarget(DateTime(2024, 12, 20, 10, 0, 0, 0)) == Ok(ResetOn(2025, 1, 1))
  {
  }
}

=== FILE: recovery.dfy ===
/** Recovery-time normalisation (`convert_recovery`, app.py:100-125) and the
    "in ~Hh Mm" renderer (`eta_str`, app.py:127-133).

    The upstream game API reports a "time until full" in one of several shapes;
    the daemon folds all of them into a whole number of seconds that is never
    negative, and renders that number for a human. */
module Recovery {
  import opened Base
  import opened Text

  const MicrosPerSecond := 1000000

  /** A Python value handed to `int(...)`: an int, a finite float, text, or
      anything else `int()` rejects (None, NaN, infinity, a timedelta, ...). */
  datatype Scalar = Int(i: int) | Float(x: real) | Str(s: string) | NotNumeric

  /** The four encodings `convert_recovery` distinguishes. An instant is an
      absolute epoch in microseconds; a naive datetime has already been read as
      UTC. A `{Day,Hour,Minute,Second}` record keeps each key optional, as
      `dict.get(key, 0)` does. */
  datatype RecoveryValue =
    | Absent
    | ReadyAt(epochMicros: int)
    | Parts(day: Option<Scalar>, hour: Option<Scalar>, minute: Option<Scalar>, second: Option<Scalar>)
    | Plain(v: Scalar)

  /** `int()` raised inside the dict branch, which has no `try` around it. */
  datatype ConversionError = ComponentNotNumeric

  /** Python's `int(x)` on a float: truncation toward zero. */
  function TruncateToInt(x: real): (r: int)
    ensures 0.0 <= x ==> 0 <= r && r as real <= x < r as real + 1.0
    ensures x < 0.0 ==> r <= 0 && r as real - 1.0 < x <= r as real
  {
    if x >= 0.0 then x.Floor else -((-x).Floor)
  }

  /** Python's `int(v)`; `None` stands for the exception it raises. */
  function PyInt(v: Scalar): (r: Option<int>)
    ensures r.None? <==> v.NotNumeric? || (v.Str? && ParseInt(v.s).None?)
    ensures v.Int? ==> r == Some(v.i)
    ensures v.Float? ==> r == Some(TruncateToInt(v.x))
    ensures v.Str? ==> r == ParseInt(v.s)
  {
    match v
    case Int(i) => Some(i)
    case Float(x) => Some(TruncateToInt(x))
    case Str(s) => ParseInt(s)
    case NotNumeric => None
  }

  /** `int(value.get(key, 0))`: a missing key reads as 0. */
  function Component(c: Option<Scalar>): Option<int> {
    match c
    case None => Some(0)
    case Some(v) => PyInt(v)
  }

  predicate PartsNumeric(v: RecoveryValue)
    requires v.Parts?
  {
    Component(v.day).Some? && Component(v.hour).Some? && Component(v.minute).Some? && Component(v.second).Some?
  }

  function Max0(x: int): nat {
    if x > 0 then x else 0
  }

  /** `convert_recovery(value)` with the current instant passed in. */
  function ConvertRecovery(v: RecoveryValue, nowMicros: int): (r: Result<nat, ConversionError>)
    // only a record with a component int() rejects raises; everything else yields seconds
    ensures r.Err? <==> v.Parts? && !PartsNumeric(v)
    ensures v.Absent? ==> r == Ok(0)
    // an instant gives the whole seconds still to wait, rounded down, and 0 once it has passed
    ensures v.ReadyAt? ==>
      r.Ok? && r.value * MicrosPerSecond <= Max0(v.epochMicros - nowMicros) < (r.value + 1) * MicrosPerSecond
    ensures v.ReadyAt? && v.epochMicros <= nowMicros ==> r == Ok(0)
    // a record of integers gives the weighted sum, floored at zero
    ensures v.Parts? && PartsNumeric(v) ==>
      r == Ok(Max0(Component(v.day).value * 86400 + Component(v.hour).value * 3600
                   + Component(v.minute).value * 60 + Component(v.second).value))
    // a plain number is kept when non-negative; anything unparseable is "ready"
    ensures v.Plain? && v.v.Int? && v.v.i >= 0 ==> r == Ok(v.v.i)
    ensures v.Plain? && (PyInt(v.v).None? || (v.v.Int? && v.v.i < 0)) ==> r == Ok(0)
    // any other plain value goes through int() and is floored at zero
    ensures v.Plain? && PyInt(v.v).Some? ==> r == Ok(Max0(PyInt(v.v).value))
  {
    match v
    case Absent => Ok(0)
    case ReadyAt(t) =>
      Ok(Max0(TruncateToInt((t - nowMicros) as real / MicrosPerSecond as real)))
    case Parts(d, h, m, s) =>
      if PartsNumeric(v) then
        Ok(Max0(Component(d).value * 86400 + Component(h).value * 3600
                + Component(m).value * 60 + Component(s).value))
      else Err(ComponentNotNumeric)
    case Plain(x) =>
      match PyInt(x)
      case Some(i) => Ok(Max0(i))
      case None => Ok(0)
  }

  // ---------------------------------------------------------------------------
  // eta_str
  // ---------------------------------------------------------------------------

  function HourPart(h: nat): string {
    if h != 0 then NatToDecimal(h) + "h " else ""
  }

  function MinutePart(m: nat): string {
    if m != 0 then NatToDecimal(m) + "m" else ""
  }

  predicate StartsWith(s: string, p: string) {
    |p| <= |s| && s[..|p|] == p
  }

  predicate EndsWith(s: string, p: string) {
    |p| <= |s| && s[|s| - |p|..] == p
  }

  /** The text `eta_str` builds from a normalised number of seconds. The source
      applies `.strip()` to the minutes piece only (operator precedence), so the
      space after the hours survives when there are no minutes. */
  function Render(seconds: nat): (r: string)
    ensures r == "ready" <==> seconds == 0
    ensures seconds > 0 ==> StartsWith(r, "in ~")
  {
    if seconds == 0 then "ready"
    else "in ~" + HourPart(seconds / 3600) + Strip(MinutePart((seconds % 3600) / 60))
  }

  lemma NotInDigits(d: string, c: char)
    requires AllDigits(d) && !IsDigit(c)
    ensures c !in d
  {
    assert forall k :: 0 <= k < |d| ==> d[k] != c;
  }

  /** Render with its pieces spelt out. */
  lemma RenderIsPieces(seconds: nat)
    requires seconds > 0
    ensures Render(seconds) == "in ~" + HourPart(seconds / 3600) + MinutePart((seconds % 3600) / 60)
  {
    MinutePartStripped((seconds % 3600) / 60);
  }

  lemma PiecesWithHours(h: nat, m: nat)
    requires h > 0
    ensures StartsWith(("in ~" + HourPart(h) + MinutePart(m))[4..], NatToDecimal(h) + "h ")
  {
    var hp, mp := HourPart(h), MinutePart(m);
    assert ("in ~" + hp + mp)[4..] == hp + mp;
    assert (hp + mp)[..|hp|] == hp;
  }

  lemma PiecesWithoutHours(m: nat)
    ensures 'h' !in "in ~" + HourPart(0) + MinutePart(m)
  {
    assert "in ~" + HourPart(0) + MinutePart(m) == "in ~" + MinutePart(m);
    assert 'h' !in "in ~";
    if m != 0 {
      NotInDigits(NatToDecimal(m), 'h');
      assert MinutePart(m) == NatToDecimal(m) + "m";
    }
  }

  lemma PiecesWithMinutes(h: nat, m: nat)
    requires m > 0
    ensures EndsWith("in ~" + HourPart(h) + MinutePart(m), NatToDecimal(m) + "m")
  {
    var r, mp := "in ~" + HourPart(h) + MinutePart(m), MinutePart(m);
    assert r[|r| - |mp|..] == mp;
  }

  lemma PiecesWithoutMinutes(h: nat)
    ensures 'm' !in "in ~" + HourPart(h) + MinutePart(0)
  {
    assert "in ~" + HourPart(h) + MinutePart(0) == "in ~" + HourPart(h);
    assert 'm' !in "in ~";
    if h != 0 {
      NotInDigits(NatToDecimal(h), 'm');
      assert HourPart(h) == NatToDecimal(h) + "h ";
    }
  }

  /** An "<h>h " piece follows the prefix exactly when there are whole
      hours; otherwise no 'h' appears at all. */
  lemma RenderHours(seconds: nat)
    requires seconds > 0
    ensures seconds / 3600 > 0 ==> StartsWith(Render(seconds)[4..], NatToDecimal(seconds / 3600) + "h ")
    ensures seconds / 3600 == 0 ==> 'h' !in Render(seconds)
  {
    var h, m := seconds / 3600, (seconds % 3600) / 60;
    RenderIsPieces(seconds);
    if h > 0 {
      PiecesWithHours(h, m);
    } else {
      PiecesWithoutHours(m);
    }
  }

  /** An "<m>m" piece ends the text exactly when there are leftover whole
      minutes; otherwise no 'm' appears at all. */
  lemma RenderMinutes(seconds: nat)
    requires seconds > 0
    ensures (seconds % 3600) / 60 > 0 ==> EndsWith(Render(seconds), NatToDecimal((seconds % 3600) / 60) + "m")
    ensures (seconds % 3600) / 60 == 0 ==> 'm' !in Render(seconds)
  {
    var h, m := seconds / 3600, (seconds % 3600) / 60;
    RenderIsPieces(seconds);
    if m > 0 {
      PiecesWithMinutes(h, m);
    } else {
      PiecesWithoutMinutes(h);
    }
  }

  /** Text ending in an information separator is not a number to `int()`,
      so it normalises to 0. */
  lemma SeparatorTextIsZero(nowMicros: int)
    ensures ConvertRecovery(Plain(Str("30\U{1F}")), nowMicros) == Ok(0)
  {
    var t := "30\U{1F}";
    assert IsSeparator(t[2]);
    assert PyInt(Str(t)).None?;
  }

  /** `eta_str(value)`: normalise, then render. */
  function EtaStr(v: RecoveryValue, nowMicros: int): (r: Result<string, ConversionError>)
    ensures r.Ok? <==> ConvertRecovery(v, nowMicros).Ok?
    ensures r.Ok? ==> (r.value == "ready" <==> ConvertRecovery(v, nowMicros).value == 0)
    // otherwise the text reads back as the whole hours and leftover minutes
    // of the normalised seconds
    ensures r.Ok? && r.value != "ready" ==>
      var s := ConvertRecovery(v, nowMicros).value;
      StartsWith(r.value, "in ~") && ParseEta(r.value) == Some(Approx(s / 3600, (s % 3600) / 60))
  {
    var seconds :- ConvertRecovery(v, nowMicros);
    RenderRoundTrip(seconds);
    Ok(Render(seconds))
  }

  /** What a reader of the rendered text can recover from it. */
  datatype Eta = Ready | Approx(hours: nat, minutes: nat)

  /** Reads the text after "in ~": an optional "<digits>h " then an optional
      "<digits>m". */
  function ParseEtaBody(t: string): Option<(nat, nat)> {
    if t == [] then Some((0, 0))
    else
      var k := DigitRun(t);
      if k == 0 then None
      else
        var n := DecimalValue(t[..k]);
        var rest := t[k..];
        if rest == "m" then Some((0, n))
        else if |rest| >= 2 && rest[..2] == "h " then
          var u := rest[2..];
          if u == [] then Some((n, 0))
          else
            var k2 := DigitRun(u);
            if k2 > 0 && u[k2..] == "m" then Some((n, DecimalValue(u[..k2]))) else None
        else None
  }

  /** The inverse reading of `Render`. */
  function ParseEta(t: string): Option<Eta> {
    if t == "ready" then Some(Ready)
    else if StartsWith(t, "in ~") then
      match ParseEtaBody(t[4..])
      case Some((h, m)) => Some(Approx(h, m))
      case None => None
    else None
  }

  lemma MinutePartStripped(m: nat)
    ensures Strip(MinutePart(m)) == MinutePart(m)
  {
    var p := MinutePart(m);
    if m != 0 {
      var d := NatToDecimal(m);
      assert forall i :: 0 <= i < |p| ==> p[i] == 'm' || IsDigit(p[i]);
    }
    assert NoSpace(p);
  }

  lemma ParseMinutes(m: nat)
    requires m != 0
    ensures ParseEtaBody(MinutePart(m)) == Some((0, m))
  {
    var dm := NatToDecimal(m);
    var t := MinutePart(m);
    assert t == dm + "m";
    DigitRunOfDigitsThen(dm, "m");
    assert t[..|dm|] == dm;
    assert t[|dm|..] == "m";
    DecimalRoundTrip(m);
  }

  /** The hours piece reads back as `h`, leaving the text after "h ". */
  lemma HoursPrefix(h: nat, u: string)
    requires h != 0
    ensures var body := HourPart(h) + u;
            var k := DigitRun(body);
            k > 0 && DecimalValue(body[..k]) == h && body[k..] == "h " + u
  {
    var dh := NatToDecimal(h);
    var body := HourPart(h) + u;
    assert body == dh + ("h " + u);
    DigitRunOfDigitsThen(dh, "h " + u);
    assert body[..|dh|] == dh;
    assert body[|dh|..] == "h " + u;
    DecimalRoundTrip(h);
  }

  /** The minutes piece read as what follows the hours. */
  lemma MinutesAfterHours(m: nat)
    requires m != 0
    ensures var u := MinutePart(m);
            var k2 := DigitRun(u);
            u != [] && k2 > 0 && u[k2..] == "m" && DecimalValue(u[..k2]) == m
  {
    var dm := NatToDecimal(m);
    var u := MinutePart(m);
    DigitRunOfDigitsThen(dm, "m");
    assert u[..|dm|] == dm;
    assert u[|dm|..] == "m";
    DecimalRoundTrip(m);
  }

  lemma ParseHours(h: nat, m: nat)
    requires h != 0
    ensures ParseEtaBody(HourPart(h) + MinutePart(m)) == Some((h, m))
  {
    var u := MinutePart(m);
    HoursPrefix(h, u);
    assert ("h " + u)[..2] == "h ";
    assert ("h " + u)[2..] == u;
    if m != 0 {
      MinutesAfterHours(m);
    }
  }

  lemma ParseBody(h: nat, m: nat)
    ensures ParseEtaBody(HourPart(h) + MinutePart(m)) == Some((h, m))
  {
    if h != 0 {
      ParseHours(h, m);
    } else if m != 0 {
      assert HourPart(h) + MinutePart(m) == MinutePart(m);
      ParseMinutes(m);
    } else {
      assert HourPart(h) + MinutePart(m) == [];
    }
  }

  /** Rendering keeps exactly the hours and minutes: reading the text back
      gives `seconds / 3600` and the leftover whole minutes. */
  lemma {:induction false} RenderRoundTrip(seconds: nat)
    ensures ParseEta(Render(seconds))
         == Some(if seconds == 0 then Ready else Approx(seconds / 3600, (seconds % 3600) / 60))
  {
    if seconds > 0 {
      var h, m := seconds / 3600, (seconds % 3600) / 60;
      MinutePartStripped(m);
      var t := Render(seconds);
      assert t == "in ~" + (HourPart(h) + MinutePart(m));
      assert t[4..] == HourPart(h) + MinutePart(m);
      ParseBody(h, m);
    }
  }

  lemma MinutesSplit(s: nat)
    ensures s / 3600 == (s / 60) / 60
    ensures (s % 3600) / 60 == (s / 60) % 60
  {
    var q := s / 3600;
    var r := s % 3600;
    assert s == q * 3600 + r;
    assert s / 60 == q * 60 + r / 60;
  }

  /** Two second counts render identically exactly when both are zero or both
      are positive with the same number of whole minutes. */
  lemma RenderSameIff(a: nat, b: nat)
    ensures Render(a) == Render(b) <==> ((a == 0) == (b == 0) && a / 60 == b / 60)
  {
    MinutesSplit(a);
    MinutesSplit(b);
    if Render(a) == Render(b) {
      RenderRoundTrip(a);
      RenderRoundTrip(b);
      if a != 0 {
        assert a / 60 == (a / 3600) * 60 + (a % 3600) / 60;
        assert b / 60 == (b / 3600) * 60 + (b % 3600) / 60;
      }
    }
  }

  /** The precedence quirk pinned down on concrete values: a whole hour keeps
      its trailing space. */
  lemma RenderWholeHour()
    ensures Render(3600) == "in ~1h "
  {
    assert 3600 / 3600 == 1 && (3600 % 3600) / 60 == 0;
    assert MinutePart(0) == [] && Strip([]) == [];
    assert DigitChar(1) == '1';
    assert HourPart(1) == "1h ";
    assert "in ~" + "1h " + [] == "in ~1h ";
  }

  /** Under a minute renders as the bare prefix. */
  lemma RenderUnderAMinute()
    ensures Render(30) == "in ~"
  {
    assert 30 / 3600 == 0 && (30 % 3600) / 60 == 0;
    assert HourPart(0) == [] && MinutePart(0) == [];
    assert Strip([]) == [];
    assert "in ~" + [] + [] == "in ~";
  }

  /** A numeric value already normalised renders the same through `eta_str`,
      which normalises a second time (app.py:188 then 219). */
  lemma EtaOfSecondsIsRender(n: nat, nowMicros: int)
    ensures EtaStr(Plain(Int(n)), nowMicros) == Ok(Render(n))
  {
  }
}

=== FILE: report.dfy ===
/** The pure part of one monitoring cycle (`run_once`, app.py:178-264): the
    fields of the Daily Notes report derived from a snapshot that may lack
    some of them, and the order in which the cycle loads state, normalises,
    alerts and reports. Fetching the snapshot and posting to Slack are
    outcomes passed in. */
module Report {
  import opened Base
  import opened Text
  import opened Recovery
  import opened Calendar
  import opened Alerts

  /** One expedition; `finished` is absent when the attribute is missing. */
  datatype Expedition = Expedition(finished: Option<bool>)

  /** The Daily Notes snapshot. The fields read through `getattr` with a
      default are optional, and `None` stands for a missing attribute or a
      `None` value, which `getattr(..., d) or d` treats alike; the fields read
      directly as attributes are always present. */
  datatype Notes = Notes(
    currentResin: int,
    maxResin: int,
    resinRecovery: RecoveryValue,
    finishedCommissions: Option<int>,
    maxCommissions: Option<int>,
    claimedCommissionReward: Option<bool>,
    expeditions: Option<seq<Expedition>>,
    currentRealmCurrency: Option<int>,
    maxRealmCurrency: Option<int>,
    realmRecovery: RecoveryValue)

  datatype Teapot = TeapotUnavailable | Teapot(current: int, max: int, eta: string)

  /** The values the Slack blocks are filled with. */
  datatype DailyReport = DailyReport(
    resinCurrent: int,
    resinMax: int,
    resinEta: string,
    expeditionsFinished: nat,
    expeditionsTotal: nat,
    teapot: Teapot,
    abyssTarget: DateTime,
    abyssEta: string,
    commissionsDone: int,
    commissionsTotal: int,
    commissionsClaimed: bool)

  datatype CycleError =
    | FetchFailed
    | Conversion(conversion: ConversionError)
    | Alert(alert: AlertError)
    | ResetOutOfRange(calendar: CalendarError)
    | DeliveryFailed

  /** `getattr(notes, name, d) or d` for an integer attribute: absent, `None`
      and 0 all give the default. */
  function OrDefault(o: Option<int>, d: int): (r: int)
    ensures o.Some? && o.value != 0 ==> r == o.value
    ensures o.None? || o == Some(0) ==> r == d
  {
    if o.Some? && o.value != 0 then o.value else d
  }

  /** `notes.expeditions or []`. */
  function ExpeditionsOf(notes: Notes): seq<Expedition> {
    notes.expeditions.GetOr([])
  }

  predicate IsFinished(e: Expedition) {
    e.finished == Some(true)
  }

  /** `sum(1 for e in expeditions if getattr(e, "finished", False))`. */
  function CountFinished(es: seq<Expedition>): (n: nat)
    ensures n <= |es|
    decreases |es|
  {
    if es == [] then 0
    else CountFinished(es[..|es| - 1]) + (if IsFinished(es[|es| - 1]) then 1 else 0)
  }

  ghost function FinishedIndices(es: seq<Expedition>): set<int> {
    set i | 0 <= i < |es| && IsFinished(es[i])
  }

  /** The count is the number of positions holding a finished expedition. */
  lemma {:induction false} CountFinishedIsCardinality(es: seq<Expedition>)
    ensures CountFinished(es) == |FinishedIndices(es)|
    decreases |es|
  {
    if es != [] {
      var n := |es| - 1;
      var init := es[..n];
      CountFinishedIsCardinality(init);
      assert forall i :: 0 <= i < n ==> init[i] == es[i];
      if IsFinished(es[n]) {
        assert FinishedIndices(es) == FinishedIndices(init) + {n};
      } else {
        assert FinishedIndices(es) == FinishedIndices(init);
      }
    }
  }

  /** `eta_str(int(abyss_delta.total_seconds())).replace("in ~", "")`. */
  function AbyssEta(deltaMicros: int): (r: string)
    // under a second (or past) it is "ready"; otherwise it is the rendered
    // whole seconds with only the "in ~" prefix taken off
    ensures deltaMicros < MicrosPerSecond ==> r == "ready"
    ensures deltaMicros >= MicrosPerSecond ==> "in ~" + r == Render(deltaMicros / MicrosPerSecond)
  {
    var seconds := TruncateToInt(deltaMicros as real / MicrosPerSecond as real);
    AbyssEtaDropsPrefix(deltaMicros, seconds);
    RemoveAll(Render(Max0(seconds)), "in ~")
  }

  lemma AbyssEtaDropsPrefix(deltaMicros: int, seconds: int)
    requires seconds == TruncateToInt(deltaMicros as real / MicrosPerSecond as real)
    ensures deltaMicros < MicrosPerSecond ==> RemoveAll(Render(Max0(seconds)), "in ~") == "ready"
    ensures deltaMicros >= MicrosPerSecond ==>
      seconds == deltaMicros / MicrosPerSecond > 0
      && "in ~" + RemoveAll(Render(Max0(seconds)), "in ~") == Render(seconds)
  {
    if deltaMicros >= MicrosPerSecond {
      assert seconds * MicrosPerSecond <= deltaMicros < (seconds + 1) * MicrosPerSecond;
      assert seconds == deltaMicros / MicrosPerSecond;
      var s: nat := seconds;
      var h, m := s / 3600, (s % 3600) / 60;
      MinutePartStripped(m);
      var tail := HourPart(h) + MinutePart(m);
      assert Render(s) == "in ~" + tail;
      RemoveLeading("in ~", tail);
      NoLetterI(h, m);
    } else {
      assert Max0(seconds) == 0;
      assert 'i' !in "ready";
    }
  }

  lemma NoLetterI(h: nat, m: nat)
    ensures 'i' !in HourPart(h) + MinutePart(m)
  {
    var s := HourPart(h) + MinutePart(m);
    assert forall k :: 0 <= k < |s| ==> IsDigit(s[k]) || s[k] == 'h' || s[k] == ' ' || s[k] == 'm';
  }

  /** Dropping the "in ~" prefix loses nothing else: the abyss text is
      "ready" under one second, and otherwise reads back, behind "in ~", as
      the hours and minutes left. */
  lemma AbyssEtaReadsBack(deltaMicros: int)
    requires deltaMicros > 0
    ensures AbyssEta(deltaMicros) == "ready" <==> deltaMicros < MicrosPerSecond
    ensures deltaMicros >= MicrosPerSecond ==>
      var s := deltaMicros / MicrosPerSecond;
      ParseEta("in ~" + AbyssEta(deltaMicros)) == Some(Approx(s / 3600, (s % 3600) / 60))
  {
    var seconds := TruncateToInt(deltaMicros as real / MicrosPerSecond as real);
    assert seconds * MicrosPerSecond <= deltaMicros < (seconds + 1) * MicrosPerSecond;
    assert seconds == deltaMicros / MicrosPerSecond;
    var s: nat := seconds;
    if s > 0 {
      var h, m := s / 3600, (s % 3600) / 60;
      MinutePartStripped(m);
      var tail := HourPart(h) + MinutePart(m);
      assert Render(s) == "in ~" + tail;
      RemoveLeading("in ~", tail);
      NoLetterI(h, m);
      assert AbyssEta(deltaMicros) == tail;
      assert tail != "ready";
      RenderRoundTrip(s);
    } else {
      assert 'i' !in "ready";
    }
  }

  /** What the derived report promises about each field. */
  ghost predicate ReportAsPromised(notes: Notes, resinEta: nat, nowLocal: DateTime, r: DailyReport)
    requires Valid(nowLocal)
  {
    var es := ExpeditionsOf(notes);
    // resin is copied through, with its normalised eta rendered
    && r.resinCurrent == notes.currentResin && r.resinMax == notes.maxResin
    && r.resinEta == Render(resinEta)
    // expeditions are counted, never taken from an upstream total
    && r.expeditionsTotal == |es|
    && r.expeditionsFinished == |FinishedIndices(es)| <= r.expeditionsTotal
    && (notes.expeditions.None? || notes.expeditions == Some([]) ==> r.expeditionsFinished == 0 == r.expeditionsTotal)
    // commissions default to 0 of 4, unclaimed
    && (notes.maxCommissions.None? || notes.maxCommissions == Some(0) ==> r.commissionsTotal == 4)
    && (notes.maxCommissions.Some? && notes.maxCommissions.value != 0 ==> r.commissionsTotal == notes.maxCommissions.value)
    && (notes.finishedCommissions.None? ==> r.commissionsDone == 0)
    && (notes.finishedCommissions.Some? ==> r.commissionsDone == notes.finishedCommissions.value)
    && (r.commissionsClaimed <==> notes.claimedCommissionReward == Some(true))
    // the teapot line is N/A unless both current and max are present
    && (r.teapot.TeapotUnavailable? <==> notes.currentRealmCurrency.None? || notes.maxRealmCurrency.None?)
    && (r.teapot.Teapot? ==>
          && r.teapot.current == notes.currentRealmCurrency.value
          && r.teapot.max == notes.maxRealmCurrency.value)
    // the abyss target is the next reset, and its eta text reads back
    && NextAbyssResetNa(nowLocal).Ok?
    && r.abyssTarget == NextAbyssResetNa(nowLocal).value.target
    && (r.abyssEta == "ready" <==> NextAbyssResetNa(nowLocal).value.deltaMicros < MicrosPerSecond)
    && (NextAbyssResetNa(nowLocal).value.deltaMicros >= MicrosPerSecond ==>
          var s := NextAbyssResetNa(nowLocal).value.deltaMicros / MicrosPerSecond;
          ParseEta("in ~" + r.abyssEta) == Some(Approx(s / 3600, (s % 3600) / 60)))
  }

  /** The field derivations of app.py:186-210 and 227-230, given the resin
      eta already normalised (app.py:188). The teapot eta is normalised even
      when the line will read N/A, so a malformed one still raises. */
  function DeriveReport(notes: Notes, resinEta: nat, nowUtcMicros: int, nowLocal: DateTime)
    : (r: Result<DailyReport, CycleError>)
    requires Valid(nowLocal)
    ensures r.Err? <==> ConvertRecovery(notes.realmRecovery, nowUtcMicros).Err? || NextAbyssResetNa(nowLocal).Err?
    ensures r.Ok? ==> ReportAsPromised(notes, resinEta, nowLocal, r.value)
    ensures r.Ok? && r.value.teapot.Teapot? ==>
      r.value.teapot.eta == Render(ConvertRecovery(notes.realmRecovery, nowUtcMicros).value)
  {
    var es := ExpeditionsOf(notes);
    var realmEta :- ConvertRecovery(notes.realmRecovery, nowUtcMicros).MapError(e => Conversion(e));
    var abyss :- NextAbyssResetNa(nowLocal).MapError(e => ResetOutOfRange(e));
    CountFinishedIsCardinality(es);
    AbyssEtaReadsBack(abyss.deltaMicros);
    var teapot :=
      if notes.currentRealmCurrency.Some? && notes.maxRealmCurrency.Some?
      then Teapot(notes.currentRealmCurrency.value, notes.maxRealmCurrency.value, Render(realmEta))
      else TeapotUnavailable;
    Ok(DailyReport(
      notes.currentResin, notes.maxResin, Render(resinEta),
      CountFinished(es), |es|,
      teapot,
      abyss.target, AbyssEta(abyss.deltaMicros),
      OrDefault(notes.finishedCommissions, 0), OrDefault(notes.maxCommissions, 4),
      notes.claimedCommissionReward == Some(true)))
  }

  // ---------------------------------------------------------------------------
  // One cycle
  // ---------------------------------------------------------------------------

  /** What a cycle leaves behind: the state file, the alert posts that went
      out, the report that was posted, and the exception that ended it. */
  datatype CycleOutcome = CycleOutcome(file: StoredFile, alerted: seq<int>,
                                       posted: Option<DailyReport>, error: Option<CycleError>)

  /** The alert posts that went out before the alert step raised. */
  function AlertedBefore(e: AlertError): seq<int> {
    if e.PostFailed? then e.posted else []
  }

  /** What `run_once()` does after `load_state()` returned `loaded`: fetch
      (an outcome passed in), normalise the resin eta, fire alerts, derive the
      report and post it. An exception at any step ends the cycle with
      whatever was already written. */
  function Cycle(stored: StoredFile, loaded: Loaded, fetched: Option<Notes>, thresholds: seq<int>,
                 dayKey: string, nowUtcMicros: int, nowLocal: DateTime,
                 delivered: int -> bool, reportDelivered: bool): (o: CycleOutcome)
    requires Valid(nowLocal)
    ensures fetched.None? ==> o == CycleOutcome(stored, [], None, Some(FetchFailed))
    ensures o.file != stored ==>
      && o.alerted != []
      && o.file.Parsed? && o.file.value.Object?
      && forall t :: t in o.alerted ==> Marked(DayOf(o.file.value.doc, dayKey), t)
    ensures o.posted.Some? <==> o.error.None?
    ensures o.error.None? ==>
      && reportDelivered && fetched.Some?
      && ConvertRecovery(fetched.value.resinRecovery, nowUtcMicros).Ok?
      && var alerts := FireOnLoadedAsWritten(fetched.value.currentResin, thresholds, loaded, dayKey, delivered);
      && var report := DeriveReport(fetched.value, ConvertRecovery(fetched.value.resinRecovery, nowUtcMicros).value,
                                    nowUtcMicros, nowLocal);
      && alerts.Ok? && o.alerted == alerts.value.fired
      && report.Ok? && o.posted == Some(report.value)
  {
    match fetched
    case None => CycleOutcome(stored, [], None, Some(FetchFailed))
    case Some(notes) =>
      match ConvertRecovery(notes.resinRecovery, nowUtcMicros)
      case Err(e) => CycleOutcome(stored, [], None, Some(Conversion(e)))
      case Ok(resinEta) =>
        match FireOnLoadedAsWritten(notes.currentResin, thresholds, loaded, dayKey, delivered)
        case Err(e) => CycleOutcome(stored, AlertedBefore(e), None, Some(Alert(e)))
        case Ok(run) =>
          var file := Persist(stored, Ok(run));
          assert file != stored ==> forall t :: t in run.fired ==> Marked(DayOf(run.doc, dayKey), t);
          match DeriveReport(notes, resinEta, nowUtcMicros, nowLocal)
          case Err(e) => CycleOutcome(file, run.fired, None, Some(e))
          case Ok(report) =>
            if reportDelivered then CycleOutcome(file, run.fired, Some(report), None)
            else CycleOutcome(file, run.fired, None, Some(DeliveryFailed))
  }

  /** `run_once()` as written: the state comes from `load_state()` as it is,
      so a state file holding a JSON non-object ends every cycle at the alert
      step, before the report. */
  function RunOnce(stored: StoredFile, fetched: Option<Notes>, thresholds: seq<int>, dayKey: string,
                   nowUtcMicros: int, nowLocal: DateTime,
                   delivered: int -> bool, reportDelivered: bool): (o: CycleOutcome)
    requires Valid(nowLocal)
    // a failed fetch changes nothing and sends nothing
    ensures fetched.None? ==> o == CycleOutcome(stored, [], None, Some(FetchFailed))
    // the state file is rewritten only after an alert went out, and then holds
    // every alert of the cycle as marked
    ensures o.file != stored ==>
      && o.alerted != []
      && o.file.Parsed? && o.file.value.Object?
      && forall t :: t in o.alerted ==> Marked(DayOf(o.file.value.doc, dayKey), t)
    // the report is posted exactly when the cycle ends without an exception,
    // and it is the report derived from the fetched notes; the alerts sent
    // are those the alert step fired
    ensures o.posted.Some? <==> o.error.None?
    ensures o.error.None? ==>
      && reportDelivered && fetched.Some?
      && ConvertRecovery(fetched.value.resinRecovery, nowUtcMicros).Ok?
      && LoadStateAsWritten(stored).Object?
      && var alerts := FireResinAlerts(fetched.value.currentResin, thresholds,
                                       LoadStateAsWritten(stored).doc, dayKey, delivered);
      && var report := DeriveReport(fetched.value, ConvertRecovery(fetched.value.resinRecovery, nowUtcMicros).value,
                                    nowUtcMicros, nowLocal);
      && alerts.Ok? && o.alerted == alerts.value.fired
      && report.Ok? && o.posted == Some(report.value)
    // a non-object state file ends every cycle that gets past normalising
    ensures stored == Parsed(NonObject) && fetched.Some?
            && ConvertRecovery(fetched.value.resinRecovery, nowUtcMicros).Ok? ==>
      o == CycleOutcome(stored, [], None, Some(Alert(StateNotAnObject)))
  {
    Cycle(stored, LoadStateAsWritten(stored), fetched, thresholds, dayKey, nowUtcMicros, nowLocal,
          delivered, reportDelivered)
  }

  /** `run_once()` with the corrected loader, which reads every unusable
      state file as the empty document. */
  function RunOnceCorrected(stored: StoredFile, fetched: Option<Notes>, thresholds: seq<int>, dayKey: string,
                            nowUtcMicros: int, nowLocal: DateTime,
                            delivered: int -> bool, reportDelivered: bool): (o: CycleOutcome)
    requires Valid(nowLocal)
    // the alert step can now fail only on a Slack post
    ensures o.error.Some? && o.error.value.Alert? ==> o.error.value.alert.PostFailed?
    // a non-object state file behaves like a missing one does in the cycle
    // as written, except that an unchanged file stays as it was
    ensures stored == Parsed(NonObject) ==>
      var m := RunOnce(NoFile, fetched, thresholds, dayKey, nowUtcMicros, nowLocal, delivered, reportDelivered);
      && o.alerted == m.alerted && o.posted == m.posted && o.error == m.error
      && o.file == (if m.file == NoFile then stored else m.file)
    ensures o.posted.Some? <==> o.error.None?
    ensures o.error.None? ==>
      && reportDelivered && fetched.Some?
      && ConvertRecovery(fetched.value.resinRecovery, nowUtcMicros).Ok?
      && var alerts := FireResinAlerts(fetched.value.currentResin, thresholds, LoadState(stored), dayKey, delivered);
      && var report := DeriveReport(fetched.value, ConvertRecovery(fetched.value.resinRecovery, nowUtcMicros).value,
                                    nowUtcMicros, nowLocal);
      && alerts.Ok? && o.alerted == alerts.value.fired
      && report.Ok? && o.posted == Some(report.value)
  {
    Cycle(stored, Object(LoadState(stored)), fetched, thresholds, dayKey, nowUtcMicros, nowLocal,
          delivered, reportDelivered)
  }

  /** The corrected cycle differs from the one as written only on a state
      file holding a JSON non-object. */
  lemma CorrectedDiffersOnlyOnNonObject(stored: StoredFile, fetched: Option<Notes>, thresholds: seq<int>,
                                        dayKey: string, nowUtc: int, nowLocal: DateTime,
                                        delivered: int -> bool, reportDelivered: bool)
    requires Valid(nowLocal)
    ensures stored != Parsed(NonObject) ==>
      RunOnceCorrected(stored, fetched, thresholds, dayKey, nowUtc, nowLocal, delivered, reportDelivered)
      == RunOnce(stored, fetched, thresholds, dayKey, nowUtc, nowLocal, delivered, reportDelivered)
  {
    if stored != Parsed(NonObject) {
      assert LoadStateAsWritten(stored) == Object(LoadState(stored));
    }
  }

  /** Where a cycle's file and alerts come from: only a cycle whose alert
      step completes can rewrite the file, and it rewrites it with that step's
      document. */
  lemma RunOnceAlertStep(stored: StoredFile, fetched: Option<Notes>, thresholds: seq<int>, dayKey: string,
                         nowUtc: int, nowLocal: DateTime, delivered: int -> bool, reportDelivered: bool)
    requires Valid(nowLocal)
    ensures var o := RunOnce(stored, fetched, thresholds, dayKey, nowUtc, nowLocal, delivered, reportDelivered);
            if && fetched.Some? && ConvertRecovery(fetched.value.resinRecovery, nowUtc).Ok?
               && FireOnLoadedAsWritten(fetched.value.currentResin, thresholds, LoadStateAsWritten(stored),
                                        dayKey, delivered).Ok?
            then
              var alerts := FireOnLoadedAsWritten(fetched.value.currentResin, thresholds, LoadStateAsWritten(stored),
                                                  dayKey, delivered);
              o.file == Persist(stored, alerts) && o.alerted == alerts.value.fired
            else o.file == stored && o.error.Some?
  {
  }

  /** Re-running a completed cycle later the same day, with no more resin,
      sends no alert and leaves the state file as it was. */
  lemma {:induction false} SecondRunSameDaySendsNothing(
    stored: StoredFile, notes: Notes, notes': Option<Notes>, thresholds: seq<int>, dayKey: string,
    nowUtc: int, nowUtc': int, nowLocal: DateTime, nowLocal': DateTime,
    delivered: int -> bool, delivered': int -> bool, reportDelivered: bool, reportDelivered': bool)
    requires Valid(nowLocal) && Valid(nowLocal')
    requires RunOnce(stored, Some(notes), thresholds, dayKey, nowUtc, nowLocal, delivered, reportDelivered).error.None?
    requires notes'.Some? ==> notes'.value.currentResin <= notes.currentResin
    ensures var first := RunOnce(stored, Some(notes), thresholds, dayKey, nowUtc, nowLocal, delivered, reportDelivered);
            var second := RunOnce(first.file, notes', thresholds, dayKey, nowUtc', nowLocal', delivered', reportDelivered');
            second.alerted == [] && second.file == first.file
  {
    var first := RunOnce(stored, Some(notes), thresholds, dayKey, nowUtc, nowLocal, delivered, reportDelivered);
    RunOnceAlertStep(stored, Some(notes), thresholds, dayKey, nowUtc, nowLocal, delivered, reportDelivered);
    RunOnceAlertStep(first.file, notes', thresholds, dayKey, nowUtc', nowLocal', delivered', reportDelivered');
    var doc := LoadStateAsWritten(stored).doc;
    var run := FireResinAlerts(notes.currentResin, thresholds, doc, dayKey, delivered).value;
    assert first.file == Persist(stored, Ok(run));
    if notes'.Some? && ConvertRecovery(notes'.value.resinRecovery, nowUtc').Ok? {
      var later := notes'.value.currentResin;
      if run.saved {
        assert LoadStateAsWritten(first.file) == Object(run.doc);
        AlertsIdempotent(notes.currentResin, later, thresholds, doc, dayKey, delivered, delivered');
      } else {
        assert first.file == stored;
        forall t | t in thresholds
          ensures !Eligible(later, DayOf(doc, dayKey), t)
        {
        }
        NothingDueFiresNothing(later, thresholds, doc, dayKey, delivered');
      }
    }
  }

  lemma NothingDueFiresNothing(resin: int, ts: seq<int>, doc: StateDoc, dayKey: string, delivered: int -> bool)
    requires forall t :: t in ts ==> !Eligible(resin, DayOf(doc, dayKey), t)
    ensures var r := FireResinAlerts(resin, ts, doc, dayKey, delivered);
            r.Ok? && r.value.fired == [] && !r.value.saved
  {
  }
}

=== FILE: text.dfy ===
/** The handful of Python string and integer conversions the daemon relies on:
    `str(n)` / `"{}".format(n)` for integers, `int(s)` for configuration text,
    `str.strip()`, and `str.split(",")`. */
module Text {
  import opened Base

  predicate IsDigit(c: char) {
    '0' <= c <= '9'
  }

  predicate AllDigits(s: string) {
    forall i :: 0 <= i < |s| ==> IsDigit(s[i])
  }

  /** The characters Python's `str.isspace()` accepts, which `str.strip()`
      removes from both ends. */
  predicate IsSpace(c: char) {
    var n := c as int;
    || (9 <= n <= 13) || (0x1C <= n <= 0x20) || n == 0x85 || n == 0xA0
    || n == 0x1680 || (0x2000 <= n <= 0x200A) || n == 0x2028 || n == 0x2029
    || n == 0x202F || n == 0x205F || n == 0x3000
  }

  predicate NoSpace(s: string) {
    forall i :: 0 <= i < |s| ==> !IsSpace(s[i])
  }

  /** The information separators U+001C..U+001F: `str.isspace()` accepts
      them, but `int()` trims only ASCII whitespace (after mapping non-ASCII
      whitespace to a space), so to `int()` they are neither whitespace nor
      part of a literal. */
  predicate IsSeparator(c: char) {
    0x1C <= c as int <= 0x1F
  }

  predicate NoSeparator(s: string) {
    forall i :: 0 <= i < |s| ==> !IsSeparator(s[i])
  }

  function DigitChar(d: nat): (c: char)
    requires d < 10
    ensures IsDigit(c)
  {
    ('0' as int + d) as char
  }

  function DigitValue(c: char): (d: nat)
    requires IsDigit(c)
    ensures d < 10
  {
    c as int - '0' as int
  }

  // ---------------------------------------------------------------------------
  // Decimal rendering and its inverse
  // ---------------------------------------------------------------------------

  /** Decimal digits of `n`, most significant first, without leading zeros. */
  function NatToDecimal(n: nat): (s: string)
    ensures |s| >= 1
    ensures AllDigits(s)
    ensures s[0] == '0' ==> n == 0
    decreases n
  {
    if n < 10 then [DigitChar(n)] else NatToDecimal(n / 10) + [DigitChar(n % 10)]
  }

  /** The value of a string of decimal digits (0 for the empty string). */
  function DecimalValue(s: string): nat
    requires AllDigits(s)
    decreases |s|
  {
    if s == [] then 0 else DecimalValue(s[..|s| - 1]) * 10 + DigitValue(s[|s| - 1])
  }

  lemma {:induction false} DecimalRoundTrip(n: nat)
    ensures DecimalValue(NatToDecimal(n)) == n
    decreases n
  {
    if n >= 10 {
      var s := NatToDecimal(n / 10);
      DecimalRoundTrip(n / 10);
      assert (s + [DigitChar(n % 10)])[..|s|] == s;
    }
  }

  /** Python's `str(i)` for an integer. */
  function IntToString(i: int): (s: string)
  {
    if i < 0 then "-" + NatToDecimal(-i) else NatToDecimal(i)
  }

  /** Length of the longest all-digit prefix of `s`. */
  function DigitRun(s: string): (k: nat)
    ensures k <= |s|
    ensures AllDigits(s[..k])
    ensures k < |s| ==> !IsDigit(s[k])
    decreases |s|
  {
    if s != [] && IsDigit(s[0]) then
      var k := 1 + DigitRun(s[1..]);
      assert s[..k] == [s[0]] + s[1..][..k - 1];
      k
    else 0
  }

  lemma DigitRunOfDigitsThen(d: string, t: string)
    requires AllDigits(d)
    requires t == [] || !IsDigit(t[0])
    ensures DigitRun(d + t) == |d|
    decreases |d|
  {
    if d != [] {
      assert (d + t)[1..] == d[1..] + t;
      DigitRunOfDigitsThen(d[1..], t);
    } else {
      assert d + t == t;
    }
  }

  // ---------------------------------------------------------------------------
  // str.strip()
  // ---------------------------------------------------------------------------

  function StripLeft(s: string): (r: string)
    ensures |r| <= |s| && r == s[|s| - |r|..]
    ensures forall i :: 0 <= i < |s| - |r| ==> IsSpace(s[i])
    ensures r == [] || !IsSpace(r[0])
    decreases |s|
  {
    if s != [] && IsSpace(s[0]) then StripLeft(s[1..]) else s
  }

  function StripRight(s: string): (r: string)
    ensures |r| <= |s| && r == s[..|r|]
    ensures forall i :: |r| <= i < |s| ==> IsSpace(s[i])
    ensures r == [] || !IsSpace(r[|r| - 1])
    decreases |s|
  {
    if s != [] && IsSpace(s[|s| - 1]) then StripRight(s[..|s| - 1]) else s
  }

  /** Python's `str.strip()` with no argument. */
  function Strip(s: string): (r: string)
    ensures r == [] <==> (forall i :: 0 <= i < |s| ==> IsSpace(s[i]))
    ensures NoSpace(s) ==> r == s
    ensures r == [] || (!IsSpace(r[0]) && !IsSpace(r[|r| - 1]))
  {
    var l := StripLeft(s);
    var r := StripRight(l);
    StripEmptyMeansBlank(s, l, r);
    r
  }

  lemma StripEmptyMeansBlank(s: string, l: string, r: string)
    requires l == StripLeft(s) && r == StripRight(l)
    ensures r == [] ==> forall i :: 0 <= i < |s| ==> IsSpace(s[i])
  {
    if r == [] {
      forall i | 0 <= i < |s|
        ensures IsSpace(s[i])
      {
      }
    }
  }

  // ---------------------------------------------------------------------------
  // int(s)
  // ---------------------------------------------------------------------------

  /** Stripped text `int()` accepts: an optional sign, then at least one
      decimal digit. */
  predicate IsIntLiteral(t: string) {
    || (|t| >= 1 && AllDigits(t))
    || (|t| >= 2 && (t[0] == '-' || t[0] == '+') && AllDigits(t[1..]))
  }

  /** `int(s)` on text; `None` stands for the ValueError. An information
      separator anywhere makes `int()` fail: it can be neither trimmed nor
      part of the literal. Otherwise `int()` trims the same characters as
      `str.strip()`. */
  function ParseInt(s: string): Option<int> {
    var t := Strip(s);
    if !NoSeparator(s) || t == [] then None
    else if t[0] == '-' || t[0] == '+' then
      if |t| > 1 && AllDigits(t[1..]) then
        var v: int := DecimalValue(t[1..]);
        Some(if t[0] == '-' then -v else v)
      else None
    else if AllDigits(t) then Some(DecimalValue(t))
    else None
  }

  /** `int()` accepts exactly the integer literals, after stripping, in text
      without an information separator, and gives the value of their digits,
      negated only under a minus sign. */
  lemma ParseIntAccepts(s: string)
    ensures ParseInt(s).Some? <==> NoSeparator(s) && IsIntLiteral(Strip(s))
    ensures ParseInt(s).Some? ==>
      var t := Strip(s);
      var digits := if AllDigits(t) then t else t[1..];
      AllDigits(digits) && |digits| >= 1 &&
      ParseInt(s).value == (if t[0] == '-' then -(DecimalValue(digits) as int) else DecimalValue(digits))
  {
    var t := Strip(s);
    if t != [] && (t[0] == '-' || t[0] == '+') {
      // a sign is not a digit, so the digits are what follows it
      assert !IsDigit(t[0]);
      assert !AllDigits(t);
    }
  }

  lemma DigitsHaveNoSpace(s: string)
    requires AllDigits(s)
    ensures NoSpace(s)
  {
  }

  lemma ParseUnsigned(d: string)
    requires |d| >= 1 && AllDigits(d)
    ensures ParseInt(d) == Some(DecimalValue(d))
  {
    DigitsHaveNoSpace(d);
    assert Strip(d) == d;
  }

  lemma SignedNoSpace(d: string)
    requires AllDigits(d)
    ensures NoSpace("-" + d)
  {
    var s := "-" + d;
    DigitsHaveNoSpace(d);
    assert forall k :: 1 <= k < |s| ==> s[k] == d[k - 1];
  }

  lemma ParseNegative(d: string)
    requires |d| >= 1 && AllDigits(d)
    ensures ParseInt("-" + d) == Some(-(DecimalValue(d) as int))
  {
    var s := "-" + d;
    SignedNoSpace(d);
    var t := Strip(s);
    assert t == s;
    assert t[0] == '-' && |t| > 1;
    assert t[1..] == d;
  }

  /** `int(str(i)) == i` for every integer. */
  lemma {:induction false} ParseIntRoundTrip(i: int)
    ensures ParseInt(IntToString(i)) == Some(i)
  {
    var n: nat := if i < 0 then -i else i;
    var d := NatToDecimal(n);
    DecimalRoundTrip(n);
    if i < 0 {
      ParseNegative(d);
    } else {
      ParseUnsigned(d);
    }
  }

  lemma IntToStringInjective(a: int, b: int)
    ensures IntToString(a) == IntToString(b) <==> a == b
  {
    if IntToString(a) == IntToString(b) {
      ParseIntRoundTrip(a);
      ParseIntRoundTrip(b);
    }
  }

  // ---------------------------------------------------------------------------
  // str.split(sep) and sep.join(parts)
  // ---------------------------------------------------------------------------

  /** `sep.join(parts)`. */
  function Join(parts: seq<string>, sep: char): string
    decreases |parts|
  {
    if parts == [] then []
    else if |parts| == 1 then parts[0]
    else parts[0] + [sep] + Join(parts[1..], sep)
  }

  /** Python's `s.split(sep)` for a one-character separator: always at least
      one piece, no piece holds the separator, and joining gives `s` back. */
  function Split(s: string, sep: char): (parts: seq<string>)
    ensures |parts| >= 1
    ensures forall i :: 0 <= i < |parts| ==> sep !in parts[i]
    ensures Join(parts, sep) == s
    decreases |s|
  {
    if s == [] then [[]]
    else
      var rest := Split(s[1..], sep);
      if s[0] == sep then
        assert Join([[]] + rest, sep) == [] + [sep] + Join(rest, sep);
        [[]] + rest
      else
        var parts := [[s[0]] + rest[0]] + rest[1..];
        assert parts[1..] == rest[1..];
        assert Join(parts, sep) == [s[0]] + Join(rest, sep);
        parts
  }

  /** Splitting a join gives the pieces back when none holds the separator. */
  lemma {:induction false} SplitJoin(parts: seq<string>, sep: char)
    requires |parts| >= 1
    requires forall i :: 0 <= i < |parts| ==> sep !in parts[i]
    ensures Split(Join(parts, sep), sep) == parts
    decreases |parts|, |parts[0]|
  {
    var p := parts[0];
    if |parts| == 1 {
      SplitNoSep(p, sep);
    } else if p == [] {
      var tail := Join(parts[1..], sep);
      assert Join(parts, sep) == [sep] + tail;
      assert ([sep] + tail)[1..] == tail;
      SplitJoin(parts[1..], sep);
    } else {
      var shorter := [p[1..]] + parts[1..];
      assert shorter[1..] == parts[1..];
      assert Join(parts, sep) == [p[0]] + Join(shorter, sep);
      assert ([p[0]] + Join(shorter, sep))[1..] == Join(shorter, sep);
      SplitJoin(shorter, sep);
      assert [p[0]] + p[1..] == p;
    }
  }

  lemma {:induction false} SplitNoSep(s: string, sep: char)
    requires sep !in s
    ensures Split(s, sep) == [s]
    decreases |s|
  {
    if s != [] {
      SplitNoSep(s[1..], sep);
      assert [s[0]] + s[1..] == s;
    }
  }

  // ---------------------------------------------------------------------------
  // s.replace(pat, "")
  // ---------------------------------------------------------------------------

  /** Python's `s.replace(pat, "")`: every non-overlapping occurrence of `pat`,
      scanning left to right, is dropped. */
  function RemoveAll(s: string, pat: string): (r: string)
    requires |pat| > 0
    ensures |r| <= |s|
    ensures pat[0] !in s ==> r == s
    decreases |s|
  {
    if |s| < |pat| then s
    else if s[..|pat|] == pat then RemoveAll(s[|pat|..], pat)
    else [s[0]] + RemoveAll(s[1..], pat)
  }

  lemma RemoveLeading(pat: string, s: string)
    requires |pat| > 0
    ensures RemoveAll(pat + s, pat) == RemoveAll(s, pat)
  {
    assert (pat + s)[..|pat|] == pat;
    assert (pat + s)[|pat|..] == s;
  }
}
